=== FILE: README.md ===
# Win10NotificationsBluetooth core, modelled in Dafny

Win10NotificationsBluetooth bridges a Windows 10 PC and an Android phone over
a Bluetooth RFCOMM connection. A background task on the PC keeps a list of the
host's toast notifications in step with the notification listener and tells
the phone about each one that appears or goes away. It shows the phone's
notifications as toasts on the PC, routes the toast buttons (reply, dismiss
call, open on device) back to the phone, and keeps a file-backed directory of
the apps that have notified, each with an allow flag. A small helper reads the
playing song title from Winamp's window text.

This project models that core as pure Dafny functions over immutable data:

- `Common`, `Text`, `Bytes`: the .NET behaviour the core relies on.
  - `String.Split`, `String.Join`, `int.Parse`, `uint.Parse`, `Trim` and ordinal `IndexOf`.
  - `BinaryWriter`/`BinaryReader` 7-bit encoded lengths and little-endian `int`.
  - The UTF-8 bytes a `BinaryWriter` writes for a string.
- `Kinds`: the message kinds `Remove`, `Add` and `Open`.
- `Protocol`: the length-table framing.
  - Outbound `GenerateMessage` has five fields.
  - The receive loop's inbound decoder has seven fields.
- `AppRecords`: `NotificationApp.Serialize` and the directory file reader `Deserialize`.
- `AppDirectory`: the in-memory directory, its reload, and the registration of a newly seen app.
- `Reconciler`: `UpdateNotifications`, the two-loop reconcile pass, with the messages it queues.
- `RemoteTable`: the table of phone notifications.
  - `ShowNotification`: upsert by key, numbering from `_id`, toast actions.
  - Withdrawal of a phone-only key.
  - `DismissAndroidNotification`.
- `Inbound`: the receive loop's handling of one decoded phone message.
- `Session`: one connection as a sequence of inputs.
  - The inputs are phone messages, host notification changes, toast history changes and toast buttons.
  - The state threads the tracked list, the directory, the phone table and the outgoing queue.
- `ToastAction`: the toast-activation background task and the three messages it can queue.
- `Winamp`: `GetSongTitle`.

Exceptions become `None` or an `aborted` flag, at exactly the points where the
source throws. A swallowed exception keeps whatever state was reached before
it.

## Model

| member | source | states |
|---|---|---|
| Reconciler.ReconcileOrders | Tasks/RfcommServerTask.cs:501-615 | With distinct notification ids, a pass that completes leaves the tracked ids exactly the snapshot's ids, newest first. A pass is cut short only by a snapshot notification whose app cannot be registered. Completed or not, no id is tracked twice afterwards, so passes can be chained. |
| Reconciler.ReconcileIdempotent | Tasks/RfcommServerTask.cs:501-615 | Running the pass again on the same snapshot changes nothing and queues no message: a completed pass is a fixed point. |
| Reconciler.Reconcile | Tasks/RfcommServerTask.cs:501-615 | While the background task is not active, a pass queues no message at all. |
| Reconciler.RemoveVanished | Tasks/RfcommServerTask.cs:514-528 | A tracked notification survives the first loop iff the snapshot still has its id. Every vanished notification of another package gets a Remove while forwarding is on. No other Remove is queued. When no id is tracked twice, no Remove is queued twice, so each vanished forwarded notification gets exactly one. |
| Reconciler.RemoveVanishedOrder | Tasks/RfcommServerTask.cs:514-528 | The survivors keep their relative order: they are a subsequence of the tracked list. |
| Reconciler.IndexOfId | Tasks/RfcommServerTask.cs:691-700 | The position found holds the id and no earlier position does. No position is found iff the list has no such id. |
| Reconciler.Move | Tasks/RfcommServerTask.cs:545 | `Move` succeeds iff the target fits the shortened list, and then the item lands at the target. Otherwise the list is left without the item, as the throwing `Move` leaves it. |
| Reconciler.Step | Tasks/RfcommServerTask.cs:535-607 | A notification already at position `i` changes nothing. One found elsewhere is moved to `i`, the directory is left alone, and its Add is queued iff forwarding is on and it is another package's; whether the app is allowed is not consulted. A new one goes through `InsertNew`. After a turn that does not throw, `i` holds the notification, and the places before it are untouched when it was not among them. |
| Reconciler.InsertNew | Tasks/RfcommServerTask.cs:558-607 | A new notification is inserted at `i`. An unknown app of another package, after the settings reload, is registered exactly as `Register` does it, allowed and with the notification's logo, and the file is written; the insert aborts iff that registration cannot be done. When the display name cannot be read the directory stays as reloaded; when serialization throws it is what `Register` leaves. A known app, or the bridge's own, leaves the reloaded directory as it is. An Add is queued iff forwarding is on and the directory allows the app. |
| Reconciler.FirstSightAnnounced | Tasks/RfcommServerTask.cs:568-606 | The first notification of an app not yet in the directory adds an allowed record with its logo, writes the file, and is announced with an Add while forwarding is on. |
| Reconciler.Announce | Tasks/RfcommServerTask.cs:601-606 | The Add goes iff forwarding is on, the app is another package's, and some record with its key is allowed. Nothing else changes. |
| Reconciler.InsertPass | Tasks/RfcommServerTask.cs:533-608 | The second loop only appends to what the first queued. Everything it appends is the Add of a forwarded snapshot notification, and it appends nothing while the task is inactive. |
| Reconciler.AddEvent | Tasks/RfcommServerTask.cs:717-752 | Without a generic binding the Add is titled "No title" with empty body and app name. With one, the first text (or "") is the title, the texts after it joined by line breaks are the body, and the display name (or "") is the app name. The id is the decimal notification id. |
| Reconciler.AddEventBodyLines | Tasks/RfcommServerTask.cs:746-748 | Splitting the body at line breaks gives back every text after the title, when no text holds a line break. |
| Reconciler.EventIdsDistinct | Tasks/RfcommServerTask.cs:721 | Notifications with different ids send Add and Remove messages with different ids. |
| Protocol.DecodeEncode | Tasks/RfcommServerTask.cs:287-304 | The receive loop's decoder returns exactly the encoded fields, even with ';' inside a field and whatever text trails the message. |
| Protocol.DecodeLengthTable | Tasks/RfcommServerTask.cs:287-304 | On success there are `n` fields. The table's first `n` entries parse as their lengths, and the text after the `n`-th ';' begins with the fields in order. |
| Protocol.WireRoundTrip | Tasks/RfcommServerTask.cs:778-782 | Every message `GenerateMessage` builds decodes back to the same kind, id, title, body and app name. |
| Protocol.WireInjective | Tasks/RfcommServerTask.cs:778-782 | Two different messages never produce the same text. |
| Protocol.ParseInbound | Tasks/RfcommServerTask.cs:287-312 | The seven named fields are read iff the seven-field decoder succeeds, and they are its fields in order. |
| Protocol.ParseInboundRoundTrip | Tasks/RfcommServerTask.cs:287-312 | A message framed as the phone frames it is read back field for field. |
| Protocol.DecodeOutbound | Tasks/RfcommServerTask.cs:778-782 | A phone-side reading succeeds only on a five-field frame, and its id, title, body and app name are that frame's last four fields. |
| AppRecords.Serialize | Tasks/Models/NotificationApp.cs:31-45 | A record serializes iff its icon array is not null. Its size is the key and name each with a 7-bit length prefix, one flag byte, a four-byte icon length and the icon. |
| AppRecords.ReadRecordOfSerialize | Tasks/RfcommServerTask.cs:664-678 | Reading a serialized record gives back its key, name, flag and icon (an empty icon as a null array), consuming exactly its bytes, whatever follows. |
| AppRecords.DeserializeSerializeAll | Tasks/RfcommServerTask.cs:652-689 | A file written record by record reads back as those records, in order, and reading then carries on with whatever follows them. |
| AppRecords.Deserialize | Tasks/RfcommServerTask.cs:652-689 | Every record read takes at least seven bytes, and no record read carries a delete mark. |
| AppRecords.DeserializeTruncatedIcon | Tasks/RfcommServerTask.cs:671-678 | A record whose icon is cut short is still read, with the icon bytes present, and it is the last record read. |
| AppRecords.DeserializeNegativeIconLength | Tasks/RfcommServerTask.cs:671-683 | A negative stored icon length drops the record and ends the reading. |
| AppRecords.SerializeIgnoresDelete | Tasks/Models/NotificationApp.cs:31-45 | The delete mark never reaches the file. |
| AppRecords.ReadBytes | Tasks/RfcommServerTask.cs:674 | A non-negative count reads that many bytes or all there are, whichever is fewer. A negative count throws. |
| AppDirectory.Reload | Tasks/RfcommServerTask.cs:636-650 | A readable file replaces the records with its own and is remembered. An unreadable one keeps the records and remembers nothing. |
| AppDirectory.ReloadIfFlagged | Tasks/RfcommServerTask.cs:562-566 | The reload happens only when the settings page raised the flag, which is then cleared. |
| AppDirectory.Register | Tasks/RfcommServerTask.cs:568-599 | A registration appends an allowed record with the logo's bytes, so the app is known and allowed. Within the per-array limit it models, the write succeeds iff key, name and logo each fit. The file then becomes the bytes remembered at the last load plus the new record, and the remembered bytes stay as they were. |
| AppDirectory.RegisterKeepsLatest | Tasks/RfcommServerTask.cs:592-598 | As coded, after any registration since the last load, the file reads back as the loaded records plus the newest record only, and the remembered bytes are still the loaded records. |
| AppDirectory.RegisterDropsRecord | Tasks/RfcommServerTask.cs:592-598 | As coded, two registrations in one session leave the first app in memory but missing from the file. |
| AppDirectory.RegisterIntended | Tasks/RfcommServerTask.cs:568-599 | The registration as evidently intended: the same record is appended, and the remembered bytes follow the file. |
| AppDirectory.RegisterKeepsLog | Tasks/RfcommServerTask.cs:592-598 | With the intended write, when the file holds exactly the records written so far, a registration keeps it so, and reading it back gives every registered app. |
| AppDirectory.PersistAsWritten | Tasks/RfcommServerTask.cs:592-598 | The file becomes the bytes remembered at the last load plus the new record, and the remembered bytes do not move on. |
| AppDirectory.PersistAsWrittenDropsRecord | Tasks/RfcommServerTask.cs:592-598 | With the write as coded, two registrations in one session leave a file without the first app's record. |
| AppDirectory.PersistKeepsBoth | Tasks/RfcommServerTask.cs:592-598 | With the remembered bytes following the file, two registrations leave both records in the file. |
| RemoteTable.Show | Tasks/RfcommServerTask.cs:156-241 | A key already shown only gets its content replaced and keeps its number. A new key is appended with the next number, and the counter moves on. Either way the toast is tagged with the entry's number and shows the given title, content and app. |
| RemoteTable.Actions | Tasks/RfcommServerTask.cs:207-232 | "Open on Device" appears iff an intent was sent. Reply (with its text box) appears iff the key starts with '+'. "Dismiss Call" and the incoming-call scenario appear iff the key also ends in "call". |
| RemoteTable.ShowKeepsValid | Tasks/RfcommServerTask.cs:158-176 | Showing keeps one entry per key, one per number, and every number below the counter. |
| RemoteTable.ShowThenFind | Tasks/RfcommServerTask.cs:158-176 | After showing, the key's entry holds the new content, and every other key finds the same entry as before. |
| RemoteTable.RemoveKey | Tasks/RfcommServerTask.cs:323-328 | An unknown key changes nothing. A known one drops the first entry with that key and returns that entry's toast tag. |
| RemoteTable.RemoveKeyFrames | Tasks/RfcommServerTask.cs:323-328 | In a valid table the key is gone afterwards, every other entry stays, and the table stays valid. |
| RemoteTable.DismissKeepsShown | Tasks/RfcommServerTask.cs:617-634 | Exactly the entries whose toast is still in the history survive, and the table stays valid. While forwarding is on, each dropped entry's key gets a Remove, every message is the Remove of a dropped entry, and there are as many messages as dropped entries. While forwarding is off, nothing is sent. |
| RemoteTable.DismissFromTells | Tasks/RfcommServerTask.cs:620-630 | Every entry whose number the loop visits and whose toast is gone is announced to the phone while forwarding is on. |
| Inbound.Dispatch | Tasks/RfcommServerTask.cs:306-348 | Handling fails iff the kind text is not an int32. Only a Remove or an Add changes the phone table. |
| Inbound.DispatchRemove | Tasks/RfcommServerTask.cs:316-330 | A Remove whose key parses as a uint dismisses that host notification and leaves the table. Any other Remove drops the key's entry and withdraws its toast iff there was one. |
| Inbound.DispatchPhoneKey | Tasks/RfcommServerTask.cs:332-342 | A '+' key is shown only as a text message (ending "sms", with the sent text) or a call (ending "call", with "Calling..."), and neither offers "Open on Device". Any other '+' key is ignored. |
| Inbound.DispatchAppKey | Tasks/RfcommServerTask.cs:343-346 | Any other Add is shown with the phone's texts, and offers "Open on Device" iff the phone sent an intent. |
| Inbound.DispatchKeepsValid | Tasks/RfcommServerTask.cs:314-348 | Handling any message keeps the phone table valid. |
| Session.Handle | Tasks/RfcommServerTask.cs:243-360 | A phone message ends the loop iff it cannot be parsed or its kind is not a number. Handling only appends to the outgoing queue. Phone messages, host changes and history changes append nothing while forwarding is off. A toast button queues its reply, dismissal or open whether forwarding is on or not, and changes nothing else. |
| Session.Run | Tasks/RfcommServerTask.cs:243-360 | The state reached is that of handling the handled inputs in turn. The input it stops at is a phone message whose handling ends the loop. The queue only grows at its end. While forwarding is off and no toast button among the inputs routes a call, the queue does not grow. |
| Session.RunQueuesOnlyToasts | Tasks/RfcommServerTask.cs:243-259 | While forwarding is off, the queue grows by exactly the replies, dismissals and opens of the toast buttons among the handled inputs, in order: those calls queue without looking at the forwarding flag. |
| Session.RunStopsAtBadLength | Tasks/RfcommServerTask.cs:302 | A message whose first length is not a number ends the session with nothing after it handled. |
| Session.RunKeepsValid | Tasks/RfcommServerTask.cs:261-360 | Every state the session goes through keeps the phone table valid. |
| Session.ReceivedAddShown | Tasks/RfcommServerTask.cs:331-347 | An app notification framed by the phone as an Add is shown with the texts it sent, and nothing else in the session changes. |
| Session.Enqueue | Tasks/RfcommServerTask.cs:760-776 | Each queued text is the generated message for the corresponding event, in order, after what was queued before. |
| ToastAction.Run | Tasks/ToastNotificationActionTriggerTask.cs:13-35 | A missing or empty argument does nothing. A '+' argument sends the first input value as a reply when inputs exist, throws when they are empty, and dismisses the call when there are none. Any other argument opens the app on the phone. |
| ToastAction.Message | Tasks/RfcommServerTask.cs:243-259 | A reply is a Remove carrying the number and text, a dismissal a bare Remove of the key, an open a bare Open of the key. |
| ToastAction.MessagesDistinct | Tasks/RfcommServerTask.cs:243-259 | Two calls queue the same text iff they are the same call, or one is an empty reply to the number the other dismisses. |
| Winamp.GetSongTitle | Win32/Winamp.cs:30-68 | Without a window there is no title. A reported length outside the 100-character buffer gives "unknown". Otherwise the title has no white space at either end. |
| Winamp.TitleFromWindow | Win32/Winamp.cs:42-67 | Every title read from a window is "Not Playing" or a piece of the window's text. |
| Winamp.BracketRule | Win32/Winamp.cs:43-49 | When " - Winamp" first occurs before the first '[' and the first ']' lies beyond the character after it, the title is what the brackets enclose, trimmed. |
| Winamp.SuffixRule | Win32/Winamp.cs:51-60 | When the bracket rule does not apply, a title ending in " - Winamp" after some text is that text, less a leading track number, trimmed. |
| Winamp.FallbackRule | Win32/Winamp.cs:62-65 | When neither the bracket rule nor the suffix rule applies, the title reads as "Not Playing". |
| Winamp.StripTrackNumber | Win32/Winamp.cs:57-59 | The text after the first '.' is kept when what precedes the dot is a non-empty number. Otherwise the text is unchanged. |
| Winamp.NumberedEntry | Win32/Winamp.cs:51-67 | "12. Artist - Song - Winamp" reads as "Artist - Song" when "12" is a number. |
| Bytes.ReadWrite7Bit | Tasks/Models/NotificationApp.cs:37-38 | A string length written as a 7-bit encoded int reads back as itself, consuming exactly its bytes. |
| Bytes.ReadInt32LEOfInt32LE | Tasks/Models/NotificationApp.cs:40 | An icon length written as a little-endian int reads back as itself. |
| Text.ParseIntToDecimal | Tasks/RfcommServerTask.cs:306 | `int.Parse` of any integer's decimal form gives that integer back, so the kind number a message carries is read back. |
| Text.JoinSplit | Tasks/RfcommServerTask.cs:287-296 | Re-joining the pieces of a split on ';' gives back the original text, so a ';' inside a field survives. |
| Kinds.TypeOfCode | Tasks/RfcommServerTask.cs:306 | With distinct kind numbers, a kind's number casts back to that kind. |

## Left out

- AppDirectory.Register: only the per-array limit is modelled (each of key, name and logo at most Int32Max bytes). .NET also throws when the serialized record outgrows its `MemoryStream`, when the int32 sum `_oldData.Length + newData.Length` at line 594 wraps or exceeds the array limit, and when the logo buffer at line 587 cannot be allocated; that last one throws before the record is added at line 590, where the model adds it and then fails. Each needs arrays of about 2 GiB.
- Reconciler.InsertNew: an unreadable display name at line 574 ends the pass with the notification already tracked and its app unregistered, so a later pass that finds it in place does not announce it. A failed display-name lookup is elsewhere described as degrading to a default without aborting the pass; the model follows the code, which only degrades it in `SendNotification`.
- The transport: the length-prefixed `DataReader` loop, short reads and task completion. A message arrives already read as text.
- Timers, deferrals, cancellation, the `LocalSettings` store (beyond the two flags it carries), `Logger`, and the task's `Progress` counter.
- Concurrency. `UpdateNotifications` runs on a task, and the notification listener, the toast history trigger and the receive loop can interleave. The session model handles one input at a time.
- A null `IsBackgroundTaskActive` setting, whose cast throws. Forwarding is a plain boolean here.
- The notification listener and `RemoveNotification`'s call into it. Each input carries the listener's snapshot as it stands afterwards.
- Toast XML, `ToastNotificationManager` and the logo bitmap. A toast is a record of its texts and buttons, and the history is a set of tags.
- File I/O failures beyond "readable" or "unreadable", including a failing `WriteBytesAsync`.
- `stream.ReadAsync` returning fewer bytes than the logo's length. The icon is the logo's bytes, or empty when fetching it throws.
- Text as .NET UTF-16. Strings are sequences of Unicode code points, so every field length in the framing (`GenerateMessage`, the receive loop's `Substring` cuts) counts code points where .NET counts UTF-16 code units. The two agree within the Basic Multilingual Plane; text with characters outside it (emoji, say) is framed differently by the source, which a phone title "😀" tabled with length 2 shows.
- Keys and names are stored as UTF-8 bytes, and decoding them back is not modelled.
- Kinds.TypeCodes: the numeric values of the `Type` enum are declared outside the modelled files, so they are any three distinct int32s.
- RemoteTable.Table: `_id` is an unbounded counter. Its int32 wrap-around after 2^31 toasts is not modelled.
- `StartsWith` and `EndsWith` without a comparison argument are culture-sensitive in .NET. They are modelled as ordinal comparisons.
- RemoteTable.DismissKeepsShown: states which Remove messages go and how many, not that they go in increasing order of the toast numbers.
- Winamp.GetSongTitle: `IsNumeric` wraps `double.TryParse` and is a parameter. `FindWindow` and `GetWindowText` become inputs.
- Winamp's command methods, Spotify, and the timer callback that polls the title.
- The settings page and main page, which have their own copy of the directory and reconcile logic.

## Findings

| source | as written | input that shows it | evidently intended | confidence | as-written member | corrected member |
|---|---|---|---|---|---|---|
| Tasks/RfcommServerTask.cs:592-598 | A registration writes `_oldData` plus the new record to the file but does not update `_oldData`. | Two notifications from two apps not yet in the directory, arriving in one session without a settings reload in between. | The file keeps every registered record, as the in-memory list does. | not executed | AppDirectory.RegisterDropsRecord | AppDirectory.RegisterKeepsLog |

=== FILE: app_records.dfy ===
/** The directory of known notifying apps (Tasks/Models/NotificationApp.cs)
    and its file format: each record is written by `NotificationApp.Serialize`
    and the file is read back by `RfcommServerTask.Deserialize`, which reads
    records until the first one it cannot read.

    Keys and names are kept as the UTF-8 bytes `BinaryWriter` writes for
    them; decoding them back to text is not modelled. */
module AppRecords {
  import opened Common
  import opened Bytes

  /** One directory record. `iconData` is `None` while the array is null
      (a record read with icon length 0); `delete` is never written. */
  datatype NotificationApp = NotificationApp(key: seq<byte>, name: seq<byte>, allowed: bool,
                                             iconData: Option<seq<byte>>, delete: bool)

  /** Every array the record holds is one .NET can allocate. */
  predicate WellSized(a: NotificationApp) {
    Fits(a.key) && Fits(a.name) && (a.iconData.Some? ==> Fits(a.iconData.value))
  }

  // ---------------------------------------------------------------------
  // Writing

  /** `BinaryWriter.Write(string)` of text whose UTF-8 bytes are `s`. */
  function WriteString(s: seq<byte>): seq<byte> {
    Write7Bit(|s|) + s
  }

  /** `BinaryWriter.Write(bool)`. */
  function WriteBool(b: bool): seq<byte> {
    [if b then 1 else 0]
  }

  /** `NotificationApp.Serialize`: key, name, allowed flag, icon length and
      icon bytes. A null icon array is a NullReferenceException (`None`). */
  function Serialize(a: NotificationApp): (r: Option<seq<byte>>)
    requires WellSized(a)
    ensures r.Some? <==> a.iconData.Some?
    ensures r.Some? ==> |r.value| == VarintSize(|a.key|) + |a.key| + VarintSize(|a.name|) + |a.name|
                                     + 5 + |a.iconData.value|
  {
    match a.iconData
    case None => None
    case Some(icon) =>
      Write7BitSize(|a.key|);
      Write7BitSize(|a.name|);
      Some(WriteString(a.key) + WriteString(a.name) + WriteBool(a.allowed) + Int32LE(|icon|) + icon)
  }

  // ---------------------------------------------------------------------
  // Reading; each reader takes the unread bytes and returns what it read
  // with the number of bytes it consumed, or `None` for an exception.

  /** `BinaryReader.ReadString` (as bytes): a negative length is an
      IOException, too few bytes an EndOfStreamException. */
  function ReadString(data: seq<byte>): (r: Option<(seq<byte>, nat)>)
    ensures r.Some? ==> |r.value.0| < r.value.1 <= |data|
    ensures r.Some? ==> r.value.0 == data[r.value.1 - |r.value.0|..r.value.1]
  {
    match ReadVarint(data)
    case None => None
    case Some((len, n)) =>
      if len < 0 || n + len > |data| then None
      else Some((data[n..n + len], n + len))
  }

  /** `BinaryReader.ReadBoolean`: any non-zero byte is true. */
  function ReadBoolean(data: seq<byte>): (r: Option<(bool, nat)>)
    ensures r.Some? <==> |data| > 0
    ensures r.Some? ==> r.value == (data[0] != 0, 1)
  {
    if |data| == 0 then None else Some((data[0] != 0, 1))
  }

  /** `BinaryReader.ReadBytes(count)`: as many of `count` bytes as there
      are (fewer at the end of the stream); a negative count throws. */
  function ReadBytes(data: seq<byte>, count: int): (r: Option<(seq<byte>, nat)>)
    ensures r.Some? <==> count >= 0
    ensures r.Some? ==> && r.value.1 == |r.value.0| <= count
                        && r.value.1 <= |data|
                        && r.value.0 == data[..r.value.1]
                        && (r.value.1 < count ==> r.value.1 == |data|)
  {
    if count < 0 then None
    else
      var m := if count < |data| then count else |data|;
      Some((data[..m], m))
  }

  /** A reading result with `n` more bytes counted as consumed. */
  function Shift(r: Option<(NotificationApp, nat)>, n: nat): Option<(NotificationApp, nat)> {
    match r
    case None => None
    case Some((a, m)) => Some((a, n + m))
  }

  /** The icon length and then, when it is non-zero, the icon bytes. */
  function ReadIcon(key: seq<byte>, name: seq<byte>, allowed: bool, data: seq<byte>)
    : (r: Option<(NotificationApp, nat)>)
    ensures r.Some? ==> 4 <= r.value.1 <= |data|
    ensures r.Some? ==> && r.value.0.key == key && r.value.0.name == name
                        && r.value.0.allowed == allowed && !r.value.0.delete
  {
    match ReadInt32LE(data)
    case None => None
    case Some((len, n)) =>
      if len == 0 then Some((NotificationApp(key, name, allowed, None, false), n))
      else
        match ReadBytes(data[n..], len)
        case None => None
        case Some((icon, m)) => Some((NotificationApp(key, name, allowed, Some(icon), false), n + m))
  }

  function ReadAfterName(key: seq<byte>, name: seq<byte>, data: seq<byte>)
    : (r: Option<(NotificationApp, nat)>)
    ensures r.Some? ==> 5 <= r.value.1 <= |data|
    ensures r.Some? ==> r.value.0.key == key && r.value.0.name == name && !r.value.0.delete
  {
    match ReadBoolean(data)
    case None => None
    case Some((allowed, n)) => Shift(ReadIcon(key, name, allowed, data[n..]), n)
  }

  function ReadAfterKey(key: seq<byte>, data: seq<byte>): (r: Option<(NotificationApp, nat)>)
    ensures r.Some? ==> 6 <= r.value.1 <= |data|
    ensures r.Some? ==> r.value.0.key == key && !r.value.0.delete
  {
    match ReadString(data)
    case None => None
    case Some((name, n)) => Shift(ReadAfterName(key, name, data[n..]), n)
  }

  /** One turn of `Deserialize`'s loop: a record and the bytes it took. */
  function ReadRecord(data: seq<byte>): (r: Option<(NotificationApp, nat)>)
    ensures r.Some? ==> 7 <= r.value.1 <= |data|
    ensures r.Some? ==> !r.value.0.delete
  {
    match ReadString(data)
    case None => None
    case Some((key, n)) => Shift(ReadAfterKey(key, data[n..]), n)
  }

  /** `RfcommServerTask.Deserialize`: records one after another until the
      first that cannot be read; a record whose icon runs past the end is
      kept with the bytes there are. */
  function Deserialize(data: seq<byte>): (apps: seq<NotificationApp>)
    ensures 7 * |apps| <= |data|
    ensures forall k :: 0 <= k < |apps| ==> !apps[k].delete
    decreases |data|
  {
    match ReadRecord(data)
    case None => []
    case Some((a, n)) => [a] + Deserialize(data[n..])
  }

  // ---------------------------------------------------------------------
  // Round trip

  /** What reading a written record gives back: the fields as written, an
      empty icon as a null array, and no delete mark. */
  function Normalize(a: NotificationApp): (b: NotificationApp)
    ensures b.key == a.key && b.name == a.name && b.allowed == a.allowed && !b.delete
    ensures b.iconData.Some? <==> a.iconData.Some? && a.iconData.value != []
  {
    NotificationApp(a.key, a.name, a.allowed, if a.iconData == Some([]) then None else a.iconData, false)
  }

  lemma ReadStringOfWriteString(s: seq<byte>, rest: seq<byte>)
    requires Fits(s)
    ensures ReadString(WriteString(s) + rest) == Some((s, |WriteString(s)|))
    ensures (WriteString(s) + rest)[|WriteString(s)|..] == rest
  {
    var data := WriteString(s) + rest;
    var p := Write7Bit(|s|);
    assert data == p + (s + rest);
    ReadWrite7Bit(|s|, s + rest);
    assert data[|p|..|p| + |s|] == s;
  }

  /** The bytes before the icon length read as written, and the record is
      whatever the icon length and what follows make of it. */
  lemma ReadRecordPrefix(key: seq<byte>, name: seq<byte>, allowed: bool, tail: seq<byte>,
                         b: NotificationApp, m: nat)
    requires Fits(key) && Fits(name)
    requires ReadIcon(key, name, allowed, tail) == Some((b, m))
    ensures ReadRecord(WriteString(key) + WriteString(name) + WriteBool(allowed) + tail)
         == Some((b, |WriteString(key)| + |WriteString(name)| + 1 + m))
  {
    ReadRecordLayers(key, name, allowed, tail);
  }

  /** `ReadRecordPrefix` for bytes and a count given in another form. */
  lemma ReadRecordPrefixAt(key: seq<byte>, name: seq<byte>, allowed: bool, tail: seq<byte>,
                           b: NotificationApp, m: nat, data: seq<byte>, total: nat)
    requires Fits(key) && Fits(name)
    requires ReadIcon(key, name, allowed, tail) == Some((b, m))
    requires data == WriteString(key) + WriteString(name) + WriteBool(allowed) + tail
    requires total == |WriteString(key)| + |WriteString(name)| + 1 + m
    ensures ReadRecord(data) == Some((b, total))
  {
    ReadRecordPrefix(key, name, allowed, tail, b, m);
  }

  /** The same when the icon part cannot be read: neither can the record. */
  lemma ReadRecordPrefixFails(key: seq<byte>, name: seq<byte>, allowed: bool, tail: seq<byte>)
    requires Fits(key) && Fits(name)
    requires ReadIcon(key, name, allowed, tail).None?
    ensures ReadRecord(WriteString(key) + WriteString(name) + WriteBool(allowed) + tail).None?
  {
    ReadRecordLayers(key, name, allowed, tail);
  }

  lemma ReadRecordLayers(key: seq<byte>, name: seq<byte>, allowed: bool, tail: seq<byte>)
    requires Fits(key) && Fits(name)
    ensures ReadRecord(WriteString(key) + WriteString(name) + WriteBool(allowed) + tail)
         == Shift(Shift(Shift(ReadIcon(key, name, allowed, tail), 1), |WriteString(name)|), |WriteString(key)|)
  {
    var tail3 := WriteBool(allowed) + tail;
    var tail2 := WriteString(name) + tail3;
    assert WriteString(key) + WriteString(name) + WriteBool(allowed) + tail == WriteString(key) + tail2;
    ReadRecordKey(key, tail2);
    ReadAfterKeyName(key, name, tail3);
    ReadAfterNameAllowed(key, name, allowed, tail);
  }

  lemma ReadRecordKey(key: seq<byte>, tail: seq<byte>)
    requires Fits(key)
    ensures ReadRecord(WriteString(key) + tail) == Shift(ReadAfterKey(key, tail), |WriteString(key)|)
  {
    ReadStringOfWriteString(key, tail);
  }

  lemma ReadAfterKeyName(key: seq<byte>, name: seq<byte>, tail: seq<byte>)
    requires Fits(name)
    ensures ReadAfterKey(key, WriteString(name) + tail) == Shift(ReadAfterName(key, name, tail), |WriteString(name)|)
  {
    ReadStringOfWriteString(name, tail);
  }

  lemma ReadAfterNameAllowed(key: seq<byte>, name: seq<byte>, allowed: bool, tail: seq<byte>)
    ensures ReadAfterName(key, name, WriteBool(allowed) + tail) == Shift(ReadIcon(key, name, allowed, tail), 1)
  {
    assert (WriteBool(allowed) + tail)[1..] == tail;
  }

  lemma ShiftShift(r: Option<(NotificationApp, nat)>, a: nat, b: nat)
    ensures Shift(Shift(r, a), b) == Shift(r, a + b)
  {
  }

  lemma ReadAfterKeyPrefix(key: seq<byte>, name: seq<byte>, allowed: bool, tail: seq<byte>)
    requires Fits(name)
    ensures ReadAfterKey(key, WriteString(name) + (WriteBool(allowed) + tail))
         == Shift(ReadIcon(key, name, allowed, tail), |WriteString(name)| + 1)
  {
    var tail3 := WriteBool(allowed) + tail;
    ReadStringOfWriteString(name, tail3);
    assert tail3[1..] == tail;
  }

  /** A stored icon length of zero reads no icon array. */
  lemma ReadIconZero(key: seq<byte>, name: seq<byte>, allowed: bool, tail: seq<byte>)
    ensures ReadIcon(key, name, allowed, Int32LE(0) + tail)
         == Some((NotificationApp(key, name, allowed, None, false), 4))
  {
    ReadInt32LEOfInt32LE(0, tail);
  }

  /** A stored positive icon length reads that many bytes, or all there are. */
  lemma ReadIconPositive(key: seq<byte>, name: seq<byte>, allowed: bool, len: nat, tail: seq<byte>)
    requires 0 < len <= Int32Max
    ensures var m := if len < |tail| then len else |tail|;
            ReadIcon(key, name, allowed, Int32LE(len) + tail)
              == Some((NotificationApp(key, name, allowed, Some(tail[..m]), false), 4 + m))
  {
    ReadInt32LEOfInt32LE(len, tail);
    assert (Int32LE(len) + tail)[4..] == tail;
  }

  /** A written icon reads back as written, an empty one as no array. */
  lemma ReadIconOfWritten(key: seq<byte>, name: seq<byte>, allowed: bool, icon: seq<byte>, rest: seq<byte>)
    requires Fits(icon)
    ensures ReadIcon(key, name, allowed, Int32LE(|icon|) + (icon + rest))
         == Some((Normalize(NotificationApp(key, name, allowed, Some(icon), false)), 4 + |icon|))
  {
    if |icon| == 0 {
      assert icon == [];
      ReadIconZero(key, name, allowed, icon + rest);
    } else {
      ReadIconPositive(key, name, allowed, |icon|, icon + rest);
      assert (icon + rest)[..|icon|] == icon;
    }
  }

  /** Reading a serialized record gives it back, consuming exactly its
      bytes, whatever follows. */
  lemma ReadRecordOfSerialize(a: NotificationApp, rest: seq<byte>)
    requires WellSized(a) && a.iconData.Some?
    ensures ReadRecord(Serialize(a).value + rest) == Some((Normalize(a), |Serialize(a).value|))
  {
    var icon := a.iconData.value;
    var tail := Int32LE(|icon|) + (icon + rest);
    SerializeLayout(a, rest);
    ReadIconOfWritten(a.key, a.name, a.allowed, icon, rest);
    assert Normalize(NotificationApp(a.key, a.name, a.allowed, Some(icon), false)) == Normalize(a);
    ReadRecordPrefixAt(a.key, a.name, a.allowed, tail, Normalize(a), 4 + |icon|,
                       Serialize(a).value + rest, |Serialize(a).value|);
  }

  /** A serialized record followed by more bytes, split where the readers
      take it apart. */
  lemma SerializeLayout(a: NotificationApp, rest: seq<byte>)
    requires WellSized(a) && a.iconData.Some?
    ensures Serialize(a).value + rest
         == WriteString(a.key) + WriteString(a.name) + WriteBool(a.allowed)
            + (Int32LE(|a.iconData.value|) + (a.iconData.value + rest))
    ensures |Serialize(a).value|
         == |WriteString(a.key)| + |WriteString(a.name)| + 1 + (4 + |a.iconData.value|)
  {
    var icon := a.iconData.value;
    var h := WriteString(a.key) + WriteString(a.name) + WriteBool(a.allowed);
    var n := Int32LE(|icon|);
    assert Serialize(a).value == h + n + icon;
    SeqAssoc(h + n, icon, rest);
    SeqAssoc(h, n, icon + rest);
  }

  /** A serialized record in front of any bytes is read first, and the
      reading goes on with those bytes. */
  lemma DeserializeCons(a: NotificationApp, rest: seq<byte>)
    requires WellSized(a) && a.iconData.Some?
    ensures Deserialize(Serialize(a).value + rest) == [Normalize(a)] + Deserialize(rest)
  {
    var bytes := Serialize(a).value;
    ReadRecordOfSerialize(a, rest);
    assert (bytes + rest)[|bytes|..] == rest;
  }

  /** The records written one after another. */
  function SerializeAll(apps: seq<NotificationApp>): (r: Option<seq<byte>>)
    requires forall k :: 0 <= k < |apps| ==> WellSized(apps[k])
    ensures r.Some? <==> forall k :: 0 <= k < |apps| ==> apps[k].iconData.Some?
    decreases |apps|
  {
    if |apps| == 0 then Some([])
    else
      match Serialize(apps[0])
      case None => None
      case Some(b) =>
        match SerializeAll(apps[1..])
        case None => None
        case Some(rest) => Some(b + rest)
  }

  function NormalizeAll(apps: seq<NotificationApp>): (r: seq<NotificationApp>)
    ensures |r| == |apps|
    ensures forall k :: 0 <= k < |apps| ==> r[k] == Normalize(apps[k])
    decreases |apps|
  {
    if |apps| == 0 then [] else [Normalize(apps[0])] + NormalizeAll(apps[1..])
  }

  /** A file written record by record reads back record by record, and
      anything after it is read on from there. */
  lemma {:induction false} DeserializeSerializeAll(apps: seq<NotificationApp>, rest: seq<byte>)
    requires forall k :: 0 <= k < |apps| ==> WellSized(apps[k]) && apps[k].iconData.Some?
    ensures Deserialize(SerializeAll(apps).value + rest) == NormalizeAll(apps) + Deserialize(rest)
    decreases |apps|
  {
    if |apps| > 0 {
      var tail := SerializeAll(apps[1..]).value;
      SerializeAllCons(apps, rest);
      DeserializeCons(apps[0], tail + rest);
      DeserializeSerializeAll(apps[1..], rest);
      assert NormalizeAll(apps) == [Normalize(apps[0])] + NormalizeAll(apps[1..]);
    } else {
      assert SerializeAll(apps).value + rest == rest;
    }
  }

  lemma SerializeAllCons(apps: seq<NotificationApp>, rest: seq<byte>)
    requires |apps| > 0
    requires forall k :: 0 <= k < |apps| ==> WellSized(apps[k]) && apps[k].iconData.Some?
    ensures SerializeAll(apps).value + rest == Serialize(apps[0]).value + (SerializeAll(apps[1..]).value + rest)
  {
    var b, t := Serialize(apps[0]).value, SerializeAll(apps[1..]).value;
    assert SerializeAll(apps) == Some(b + t);
    SeqAssoc(b, t, rest);
  }

  lemma SeqAssoc<T>(a: seq<T>, b: seq<T>, c: seq<T>)
    ensures (a + b) + c == a + (b + c)
  {
  }

  /** `Serialize` does not write the delete mark. */
  lemma SerializeIgnoresDelete(a: NotificationApp, d: bool)
    requires WellSized(a)
    ensures Serialize(a.(delete := d)) == Serialize(a)
  {
  }

  /** A record whose icon is cut short is still read, with the icon bytes
      that are there, and it is the last record read. */
  lemma DeserializeTruncatedIcon(a: NotificationApp, bytes: seq<byte>, icon: seq<byte>, cut: nat)
    requires WellSized(a) && a.iconData == Some(icon) && Serialize(a) == Some(bytes)
    requires 0 < cut <= |icon|
    ensures Deserialize(bytes[..|bytes| - cut])
         == [NotificationApp(a.key, a.name, a.allowed, Some(icon[..|icon| - cut]), false)]
  {
    var data := bytes[..|bytes| - cut];
    TruncatedLayout(a, cut, bytes, icon);
    TruncatedRead(a.key, a.name, a.allowed, icon, cut, data, |data|);
    DeserializeLast(data, NotificationApp(a.key, a.name, a.allowed, Some(icon[..|icon| - cut]), false));
  }

  /** A serialized record cut inside its icon, split where the readers take
      it apart. */
  lemma TruncatedLayout(a: NotificationApp, cut: nat, bytes: seq<byte>, icon: seq<byte>)
    requires WellSized(a) && a.iconData == Some(icon) && Serialize(a) == Some(bytes)
    requires 0 < cut <= |icon|
    ensures bytes[..|bytes| - cut]
         == WriteString(a.key) + WriteString(a.name) + WriteBool(a.allowed) + (Int32LE(|icon|) + icon[..|icon| - cut])
    ensures |bytes| - cut
         == |WriteString(a.key)| + |WriteString(a.name)| + 1 + (4 + |icon[..|icon| - cut]|)
  {
    var head := WriteString(a.key) + WriteString(a.name) + WriteBool(a.allowed);
    var n := Int32LE(|icon|);
    assert bytes == head + n + icon;
    PrefixOfAppend(head + n, icon, cut);
    SeqAssoc(head, n, icon[..|icon| - cut]);
  }

  /** The cut record reads back with the icon bytes that are left. */
  lemma TruncatedRead(key: seq<byte>, name: seq<byte>, allowed: bool, icon: seq<byte>, cut: nat,
                      data: seq<byte>, total: nat)
    requires Fits(key) && Fits(name) && Fits(icon) && 0 < cut <= |icon|
    requires data == WriteString(key) + WriteString(name) + WriteBool(allowed) + (Int32LE(|icon|) + icon[..|icon| - cut])
    requires total == |WriteString(key)| + |WriteString(name)| + 1 + (4 + |icon[..|icon| - cut]|)
    ensures ReadRecord(data) == Some((NotificationApp(key, name, allowed, Some(icon[..|icon| - cut]), false), total))
  {
    var kept := icon[..|icon| - cut];
    ReadIconPositive(key, name, allowed, |icon|, kept);
    assert kept[..|kept|] == kept;
    var b := NotificationApp(key, name, allowed, Some(kept), false);
    ReadRecordPrefixAt(key, name, allowed, Int32LE(|icon|) + kept, b, 4 + |kept|, data, total);
  }

  lemma DeserializeEmpty()
    ensures Deserialize([]) == []
  {
    assert ReadVarint([]).None?;
  }

  /** A record that takes all the bytes is the only one read. */
  lemma DeserializeLast(data: seq<byte>, a: NotificationApp)
    requires ReadRecord(data) == Some((a, |data|))
    ensures Deserialize(data) == [a]
  {
    assert data[|data|..] == [];
    assert ReadVarint([]).None?;
  }

  lemma PrefixOfAppend<T>(h: seq<T>, t: seq<T>, cut: nat)
    requires cut <= |t|
    ensures (h + t)[..|h + t| - cut] == h + t[..|t| - cut]
  {
  }

  /** A negative stored icon length makes `ReadBytes` throw: the record is
      dropped and reading stops there. */
  lemma DeserializeNegativeIconLength(key: seq<byte>, name: seq<byte>, allowed: bool, len: int,
                                      rest: seq<byte>)
    requires Fits(key) && Fits(name) && Int32Min <= len < 0
    ensures Deserialize(WriteString(key) + WriteString(name) + WriteBool(allowed) + Int32LE(len) + rest) == []
  {
    var data := WriteString(key) + WriteString(name) + WriteBool(allowed) + Int32LE(len) + rest;
    assert data == WriteString(key) + WriteString(name) + WriteBool(allowed) + (Int32LE(len) + rest);
    ReadInt32LEOfInt32LE(len, rest);
    ReadRecordPrefixFails(key, name, allowed, Int32LE(len) + rest);
  }
}

=== FILE: bytes.dfy ===
/** The binary encodings `BinaryWriter` produces and `BinaryReader` reads
    back: the 7-bit variable-length integer that prefixes a string, the
    4-byte little-endian int32, and UTF-8 text. Readers take the bytes still
    unread and return the value with the number of bytes consumed; `None`
    is the exception the reader would throw. */
module Bytes {
  import opened Common

  function Pow128(k: nat): (r: nat)
    ensures r >= 1
  {
    if k == 0 then 1 else 128 * Pow128(k - 1)
  }

  // ---------------------------------------------------------------------
  // 7-bit encoded integers (the same scheme as unsigned LEB128)

  /** `BinaryWriter.Write7BitEncodedInt` for a non-negative value: seven bits
      per byte, least significant group first, the high bit set on every
      byte but the last. */
  function Write7Bit(v: nat): (r: seq<byte>)
    ensures 1 <= |r|
    decreases v
  {
    if v < 128 then [v] else [v % 128 + 128] + Write7Bit(v / 128)
  }

  /** Only the last byte of an encoding has the high bit clear, so a reader
      knows where it ends. */
  lemma {:induction false} Write7BitShape(v: nat)
    ensures var r := Write7Bit(v);
            && r[|r| - 1] < 128
            && forall k :: 0 <= k < |r| - 1 ==> r[k] >= 128
    decreases v
  {
    if v >= 128 {
      Write7BitShape(v / 128);
      var r := Write7Bit(v);
      assert r[1..] == Write7Bit(v / 128);
    }
  }

  /** The number of bytes `Write7Bit` needs: one per started 7-bit group. */
  function VarintSize(v: nat): (n: nat)
    ensures n >= 1 && v < Pow128(n)
    ensures n > 1 ==> v >= Pow128(n - 1)
    decreases v
  {
    if v < 128 then 1 else 1 + VarintSize(v / 128)
  }

  lemma {:induction false} Write7BitSize(v: nat)
    ensures |Write7Bit(v)| == VarintSize(v)
    decreases v
  {
    if v >= 128 {
      Write7BitSize(v / 128);
    }
  }

  /** `v` shifted left by `k` seven-bit groups, `v * 128^k`. */
  function Scale(v: nat, k: nat): nat
    decreases k
  {
    if k == 0 then v else Scale(128 * v, k - 1)
  }

  lemma {:induction false} ScaleAdd(a: nat, b: nat, k: nat)
    ensures Scale(a, k) + Scale(b, k) == Scale(a + b, k)
    decreases k
  {
    if k > 0 {
      ScaleAdd(128 * a, 128 * b, k - 1);
    }
  }

  /** The 32 low bits of a sum, read as an int32. */
  function Wrap32(x: nat): (r: int)
    ensures IsInt32(r)
    ensures x <= Int32Max ==> r == x
  {
    ToInt32(x % TwoTo32)
  }

  /** `BinaryReader.Read7BitEncodedInt`, continued on the unread bytes
      `data` after `k` bytes whose groups add up to `acc`: a sixth byte is a
      FormatException, running out of bytes an EndOfStreamException; the 32
      low bits of the sum are read as an int32. The second component is the
      number of bytes consumed in all. */
  function ReadVarintFrom(data: seq<byte>, k: nat, acc: nat): (r: Option<(int, nat)>)
    requires k <= 5
    ensures r.Some? ==> IsInt32(r.value.0) && k < r.value.1 <= k + |data| && r.value.1 <= 5
    decreases 5 - k
  {
    if k == 5 || |data| == 0 then None
    else
      var b := data[0];
      var acc' := acc + Scale(b % 128, k);
      if b < 128 then Some((Wrap32(acc'), k + 1))
      else ReadVarintFrom(data[1..], k + 1, acc')
  }

  function ReadVarint(data: seq<byte>): (r: Option<(int, nat)>)
    ensures r.Some? ==> IsInt32(r.value.0) && 0 < r.value.1 <= |data|
  {
    ReadVarintFrom(data, 0, 0)
  }

  lemma Pow128Small(m: nat)
    ensures m == 0 ==> Pow128(m) == 1
    ensures m == 1 ==> Pow128(m) == 128
    ensures m >= 1 ==> Pow128(m) == 128 * Pow128(m - 1)
  {
  }

  /** The last byte of an encoding ends the read. */
  lemma ReadVarintLast(data: seq<byte>, k: nat, acc: nat)
    requires k < 5 && |data| > 0 && data[0] < 128
    ensures ReadVarintFrom(data, k, acc) == Some((Wrap32(acc + Scale(data[0], k)), k + 1))
  {
    assert data[0] % 128 == data[0];
  }

  /** A byte with the high bit set adds its group and reads on. */
  lemma ReadVarintMore(data: seq<byte>, k: nat, acc: nat)
    requires k < 5 && |data| > 0 && data[0] >= 128
    ensures ReadVarintFrom(data, k, acc) == ReadVarintFrom(data[1..], k + 1, acc + Scale(data[0] - 128, k))
  {
    assert data[0] % 128 == data[0] - 128;
  }

  lemma Write7BitHead(v: nat, rest: seq<byte>)
    ensures v < 128 ==> (Write7Bit(v) + rest)[0] == v && |Write7Bit(v)| == 1
    ensures v >= 128 ==> && (Write7Bit(v) + rest)[0] == v % 128 + 128
                         && (Write7Bit(v) + rest)[1..] == Write7Bit(v / 128) + rest
                         && |Write7Bit(v)| == 1 + |Write7Bit(v / 128)|
  {
    if v >= 128 {
      assert Write7Bit(v) + rest == [v % 128 + 128] + (Write7Bit(v / 128) + rest);
    }
  }

  /** A value needing a second group leaves room for it within five bytes. */
  lemma GroupsLeft(v: nat, k: nat)
    requires k < 5 && v < Pow128(5 - k) && v >= 128
    ensures k + 1 < 5 && v / 128 < Pow128(5 - (k + 1))
  {
    Pow128Small(5 - k);
    Pow128Small(5 - k - 1);
  }

  lemma {:induction false} ReadWrite7BitFrom(v: nat, rest: seq<byte>, k: nat, acc: nat)
    requires k < 5 && v < Pow128(5 - k)
    ensures ReadVarintFrom(Write7Bit(v) + rest, k, acc)
         == Some((Wrap32(acc + Scale(v, k)), k + |Write7Bit(v)|))
    decreases v
  {
    if v < 128 {
      ReadWrite7BitOne(v, rest, k, acc);
    } else {
      GroupsLeft(v, k);
      ReadWrite7BitFrom(v / 128, rest, k + 1, acc + Scale(v % 128, k));
      ReadWrite7BitMore(v, rest, k, acc);
    }
  }

  /** The step of `ReadWrite7BitFrom` for a value of more than one group. */
  lemma ReadWrite7BitMore(v: nat, rest: seq<byte>, k: nat, acc: nat)
    requires k < 4 && v >= 128
    requires ReadVarintFrom(Write7Bit(v / 128) + rest, k + 1, acc + Scale(v % 128, k))
          == Some((Wrap32(acc + Scale(v % 128, k) + Scale(v / 128, k + 1)), k + 1 + |Write7Bit(v / 128)|))
    ensures ReadVarintFrom(Write7Bit(v) + rest, k, acc) == Some((Wrap32(acc + Scale(v, k)), k + |Write7Bit(v)|))
  {
    Write7BitHead(v, rest);
    ScaleSplit(v, k);
    ReadOn(Write7Bit(v) + rest, k, acc, Write7Bit(v / 128) + rest, acc + Scale(v % 128, k),
           Some((Wrap32(acc + Scale(v, k)), k + |Write7Bit(v)|)));
  }

  lemma ReadWrite7BitOne(v: nat, rest: seq<byte>, k: nat, acc: nat)
    requires k < 5 && v < 128
    ensures ReadVarintFrom(Write7Bit(v) + rest, k, acc) == Some((Wrap32(acc + Scale(v, k)), k + |Write7Bit(v)|))
  {
    var data := Write7Bit(v) + rest;
    assert data[0] == v;
    ReadVarintLast(data, k, acc);
  }

  /** The groups below and above the lowest one add up to the value. */
  lemma ScaleSplit(v: nat, k: nat)
    ensures Scale(v % 128, k) + Scale(v / 128, k + 1) == Scale(v, k)
  {
    assert Scale(v / 128, k + 1) == Scale(128 * (v / 128), k);
    ScaleAdd(v % 128, 128 * (v / 128), k);
  }

  /** A continuation byte passes the read on to the bytes after it. */
  lemma ReadOn(data: seq<byte>, k: nat, acc: nat, tail: seq<byte>, acc': nat, res: Option<(int, nat)>)
    requires k < 4 && |data| > 0 && data[0] >= 128 && data[1..] == tail
    requires acc' == acc + Scale(data[0] - 128, k)
    requires ReadVarintFrom(tail, k + 1, acc') == res
    ensures ReadVarintFrom(data, k, acc) == res
  {
    ReadVarintMore(data, k, acc);
  }

  /** Reading a 7-bit encoded non-negative int32 back gives the value and
      consumes exactly its encoding, whatever follows it. */
  lemma ReadWrite7Bit(v: nat, rest: seq<byte>)
    requires v <= Int32Max
    ensures ReadVarint(Write7Bit(v) + rest) == Some((v, |Write7Bit(v)|))
  {
    assert Pow128(5) == 0x8_0000_0000 by {
      assert Pow128(1) == 128;
      assert Pow128(2) == 16384;
      assert Pow128(3) == 2097152;
      assert Pow128(4) == 268435456;
    }
    ReadWrite7BitFrom(v, rest, 0, 0);
    assert Scale(v, 0) == v;
  }

  // ---------------------------------------------------------------------
  // Little-endian int32

  /** `BinaryWriter.Write(int)`: the value's 32-bit pattern, low byte first. */
  function Int32LE(v: int): (r: seq<byte>)
    requires IsInt32(v)
    ensures |r| == 4
  {
    var u := v % TwoTo32;
    [u % 256, (u / 256) % 256, (u / 65536) % 256, u / 16777216]
  }

  /** The number four bytes denote, low byte first. */
  function LEValue(d: seq<byte>): (u: nat)
    requires |d| == 4
    ensures u < TwoTo32
  {
    d[0] as int + 256 * (d[1] as int) + 65536 * (d[2] as int) + 16777216 * (d[3] as int)
  }

  /** `BinaryReader.ReadInt32`: four bytes, low byte first, as an int32. */
  function ReadInt32LE(data: seq<byte>): (r: Option<(int, nat)>)
    ensures r.Some? <==> |data| >= 4
    ensures r.Some? ==> IsInt32(r.value.0) && r.value.1 == 4
  {
    if |data| < 4 then None
    else Some((ToInt32(LEValue(data[..4])), 4))
  }

  lemma ReadInt32LEOfInt32LE(v: int, rest: seq<byte>)
    requires IsInt32(v)
    ensures ReadInt32LE(Int32LE(v) + rest) == Some((v, 4))
  {
    var d := Int32LE(v) + rest;
    assert d[..4] == Int32LE(v);
    LEDigits(v % TwoTo32);
  }

  /** The four bytes of a 32-bit pattern add back up to it. */
  lemma LEDigits(u: nat)
    requires u < TwoTo32
    ensures u % 256 + 256 * ((u / 256) % 256) + 65536 * ((u / 65536) % 256) + 16777216 * (u / 16777216) == u
  {
    var q1 := u / 256;
    var q2 := q1 / 256;
    assert u == q1 * 256 + u % 256;
    assert q1 == q2 * 256 + q1 % 256;
    assert u / 65536 == q2;
    assert q2 == (u / 16777216) * 256 + q2 % 256;
  }

  // ---------------------------------------------------------------------
  // UTF-8

  /** The UTF-8 bytes of one character. */
  function Utf8Char(c: char): (r: seq<byte>)
    ensures 1 <= |r| <= 4
  {
    var cp := c as int;
    if cp < 0x80 then [cp]
    else if cp < 0x800 then [0xC0 + cp / 64, 0x80 + cp % 64]
    else if cp < 0x1_0000 then [0xE0 + cp / 4096, 0x80 + (cp / 64) % 64, 0x80 + cp % 64]
    else [0xF0 + cp / 262144, 0x80 + (cp / 4096) % 64, 0x80 + (cp / 64) % 64, 0x80 + cp % 64]
  }

  /** `Encoding.UTF8.GetBytes(s)`. */
  function Utf8(s: string): (r: seq<byte>)
    ensures |s| <= |r| <= 4 * |s|
  {
    if |s| == 0 then [] else Utf8Char(s[0]) + Utf8(s[1..])
  }
}

=== FILE: common.dfy ===
/** Shared vocabulary: optional values, bytes, the .NET 32-bit integer ranges
    and a few sequence predicates used by every other module. */
module Common {

  /** A value that may be absent; `None` stands for a .NET `null`. */
  datatype Option<+T> = None | Some(value: T) {
    function GetOr(default: T): T {
      match this
      case Some(v) => v
      case None => default
    }
  }

  /** One octet of a byte array. */
  type byte = b: int | 0 <= b < 256

  const Int32Min: int := -0x8000_0000
  const Int32Max: int := 0x7FFF_FFFF
  const UInt32Max: int := 0xFFFF_FFFF
  const TwoTo32: int := 0x1_0000_0000

  predicate IsInt32(x: int) {
    Int32Min <= x <= Int32Max
  }

  predicate IsUInt32(x: int) {
    0 <= x <= UInt32Max
  }

  /** A .NET string or array can hold at most Int32Max elements. */
  predicate Fits<T>(s: seq<T>) {
    |s| <= Int32Max
  }

  /** Reads a 32-bit pattern (an unsigned number below 2^32) as a two's
      complement `int`, the way C# reinterprets a `uint` as an `int`. */
  function ToInt32(bits: nat): (r: int)
    requires bits < TwoTo32
    ensures IsInt32(r)
    ensures r % TwoTo32 == bits
    ensures 0 <= r <==> bits <= Int32Max
  {
    if bits <= Int32Max then bits else bits - TwoTo32
  }

  /** No element occurs twice. */
  predicate NoDup<T(==)>(s: seq<T>) {
    forall i, j :: 0 <= i < j < |s| ==> s[i] != s[j]
  }

  /** `Reverse(s)` is `s` read back to front (LINQ `Reverse`). */
  function Reverse<T>(s: seq<T>): (r: seq<T>)
    ensures |r| == |s|
    ensures forall i :: 0 <= i < |s| ==> r[i] == s[|s| - 1 - i]
  {
    if |s| == 0 then [] else Reverse(s[1..]) + [s[0]]
  }
}

=== FILE: directory.dfy ===
/** The background task's copy of the app directory (RfcommServerTask.cs):
    the records in memory (`_notificationApps`), the file bytes they were
    last loaded from (`_oldData`), the file itself, and the `newSettings`
    flag the settings page raises after rewriting the file. */
module AppDirectory {
  import opened Common
  import opened Bytes
  import opened AppRecords

  /** `file` is `None` while the file cannot be read (missing, say). */
  datatype Directory = Directory(apps: seq<NotificationApp>, oldData: seq<byte>,
                                 file: Option<seq<byte>>, newSettings: Option<bool>)

  /** Some record has this key. */
  predicate Known(apps: seq<NotificationApp>, key: seq<byte>) {
    exists k :: 0 <= k < |apps| && apps[k].key == key
  }

  /** Some record with this key is allowed to forward. */
  predicate Allows(apps: seq<NotificationApp>, key: seq<byte>) {
    exists k :: 0 <= k < |apps| && apps[k].key == key && apps[k].allowed
  }

  /** `ReadNotificationApps`: on a readable file the records are replaced by
      the file's and the bytes are remembered; otherwise the records stay and
      the remembered bytes become empty. */
  function Reload(d: Directory): (r: Directory)
    ensures r.file == d.file && r.newSettings == d.newSettings
    ensures d.file.Some? ==> r.apps == Deserialize(d.file.value) && r.oldData == d.file.value
    ensures d.file.None? ==> r.apps == d.apps && r.oldData == []
  {
    match d.file
    case Some(data) => d.(apps := Deserialize(data), oldData := data)
    case None => d.(oldData := [])
  }

  /** The reload done before a registration when the settings page has
      raised `newSettings`; the flag is cleared either way. */
  function ReloadIfFlagged(d: Directory): (r: Directory)
    ensures d.newSettings == Some(true) ==> r == Reload(d).(newSettings := Some(false))
    ensures d.newSettings != Some(true) ==> r == d
  {
    if d.newSettings == Some(true) then Reload(d).(newSettings := Some(false)) else d
  }

  /** The file write at a registration as the source has it: the file
      becomes the remembered bytes plus the new record, and the remembered
      bytes stay as they were. */
  function PersistAsWritten(d: Directory, record: seq<byte>): (r: Directory)
    ensures r.file == Some(d.oldData + record)
    ensures r.apps == d.apps && r.oldData == d.oldData && r.newSettings == d.newSettings
  {
    d.(file := Some(d.oldData + record))
  }

  /** The write as evidently intended: the record is appended to the log and
      the remembered bytes follow the file. */
  function Persist(d: Directory, record: seq<byte>): (r: Directory)
    ensures r.file == Some(d.oldData + record) && r.oldData == d.oldData + record
    ensures r.apps == d.apps && r.newSettings == d.newSettings
  {
    d.(file := Some(d.oldData + record), oldData := d.oldData + record)
  }

  /** The outcome of registering an app: the directory, and whether the
      registration threw after the record was added in memory. */
  datatype Registration = Registration(dir: Directory, failed: bool)

  /** The record a newly seen app gets: allowed, with its logo's bytes. */
  function NewRecord(key: seq<byte>, name: seq<byte>, icon: seq<byte>): NotificationApp {
    NotificationApp(key, name, true, Some(icon), false)
  }

  /** Registering a newly seen app: the record is appended in memory, then
      serialized, and the file is written as the bytes remembered at the
      last load followed by the new record; the remembered bytes stay as
      they were. Arrays too long for .NET make the serialization throw. */
  function Register(d: Directory, key: seq<byte>, name: seq<byte>, icon: seq<byte>): (r: Registration)
    ensures r.dir.apps == d.apps + [NewRecord(key, name, icon)]
    ensures Known(r.dir.apps, key) && Allows(r.dir.apps, key)
    ensures !r.failed <==> Fits(key) && Fits(name) && Fits(icon)
    ensures !r.failed ==> r.dir.oldData == d.oldData
    ensures !r.failed ==> r.dir.file == Some(d.oldData + Serialize(NewRecord(key, name, icon)).value)
    ensures r.failed ==> r.dir == d.(apps := r.dir.apps)
  {
    var app := NewRecord(key, name, icon);
    var d' := d.(apps := d.apps + [app]);
    assert d'.apps[|d.apps|] == app;
    if WellSized(app) then Registration(PersistAsWritten(d', Serialize(app).value), false)
    else Registration(d', true)
  }

  /** The registration as evidently intended: the same, except that the
      remembered bytes follow the file, so the file stays a log of every
      record written. */
  function RegisterIntended(d: Directory, key: seq<byte>, name: seq<byte>, icon: seq<byte>): (r: Registration)
    ensures r.dir.apps == d.apps + [NewRecord(key, name, icon)]
    ensures !r.failed <==> Fits(key) && Fits(name) && Fits(icon)
    ensures !r.failed ==> r.dir.oldData == d.oldData + Serialize(NewRecord(key, name, icon)).value
    ensures !r.failed ==> r.dir.file == Some(r.dir.oldData)
    ensures r.failed ==> r.dir == d.(apps := r.dir.apps)
  {
    var app := NewRecord(key, name, icon);
    var d' := d.(apps := d.apps + [app]);
    if WellSized(app) then Registration(Persist(d', Serialize(app).value), false)
    else Registration(d', true)
  }

  // ---------------------------------------------------------------------
  // What the file holds

  /** The file is exactly the records `prev` written one after another,
      and the remembered bytes are the file. */
  predicate Mirrors(d: Directory, prev: seq<NotificationApp>)
  {
    && (forall k :: 0 <= k < |prev| ==> WellSized(prev[k]) && prev[k].iconData.Some?)
    && d.oldData == SerializeAll(prev).value
    && d.file == Some(d.oldData)
  }

  lemma {:induction false} SerializeAllAppend(prev: seq<NotificationApp>, a: NotificationApp)
    requires forall k :: 0 <= k < |prev| ==> WellSized(prev[k]) && prev[k].iconData.Some?
    requires WellSized(a) && a.iconData.Some?
    ensures forall k :: 0 <= k < |prev + [a]| ==> WellSized((prev + [a])[k])
    ensures SerializeAll(prev + [a]).Some?
    ensures SerializeAll(prev + [a]).value == SerializeAll(prev).value + Serialize(a).value
    decreases |prev|
  {
    if |prev| == 0 {
      assert prev + [a] == [a];
      assert [a][1..] == [];
    } else {
      assert (prev + [a])[1..] == prev[1..] + [a];
      SerializeAllAppend(prev[1..], a);
      assert (prev + [a])[0] == prev[0];
    }
  }

  /** The intended registration keeps the file an exact log of every record
      written, so reading it back gives every registered app. */
  lemma RegisterKeepsLog(d: Directory, prev: seq<NotificationApp>, key: seq<byte>, name: seq<byte>,
                         icon: seq<byte>)
    requires Mirrors(d, prev) && Fits(key) && Fits(name) && Fits(icon)
    ensures var app := NewRecord(key, name, icon);
            && Mirrors(RegisterIntended(d, key, name, icon).dir, prev + [app])
            && Deserialize(RegisterIntended(d, key, name, icon).dir.file.value) == NormalizeAll(prev + [app])
  {
    var app := NewRecord(key, name, icon);
    SerializeAllAppend(prev, app);
    var r := RegisterIntended(d, key, name, icon).dir;
    assert r.oldData == SerializeAll(prev + [app]).value;
    DeserializeSerializeAll(prev + [app], []);
    assert SerializeAll(prev + [app]).value + [] == r.file.value;
    DeserializeEmpty();
    assert NormalizeAll(prev + [app]) + [] == NormalizeAll(prev + [app]);
  }

  /** The remembered bytes are exactly the records `prev` of the last load,
      written one after another. */
  predicate Loaded(d: Directory, prev: seq<NotificationApp>)
  {
    && (forall k :: 0 <= k < |prev| ==> WellSized(prev[k]) && prev[k].iconData.Some?)
    && d.oldData == SerializeAll(prev).value
  }

  /** As written, every registration since the last load leaves the file
      holding the loaded records and the newest record only: the remembered
      bytes stay the loaded ones. */
  lemma RegisterKeepsLatest(d: Directory, prev: seq<NotificationApp>, key: seq<byte>, name: seq<byte>,
                            icon: seq<byte>)
    requires Loaded(d, prev) && Fits(key) && Fits(name) && Fits(icon)
    ensures var r := Register(d, key, name, icon).dir;
            && Loaded(r, prev)
            && Deserialize(r.file.value) == NormalizeAll(prev + [NewRecord(key, name, icon)])
  {
    var app := NewRecord(key, name, icon);
    SerializeAllAppend(prev, app);
    var r := Register(d, key, name, icon).dir;
    assert r.file.value == SerializeAll(prev + [app]).value + [];
    DeserializeSerializeAll(prev + [app], []);
    DeserializeEmpty();
    assert NormalizeAll(prev + [app]) + [] == NormalizeAll(prev + [app]);
  }

  /** Two registrations in one session, as written: the first app is in
      memory but missing from the file. */
  lemma RegisterDropsRecord(d: Directory, prev: seq<NotificationApp>, a: seq<byte>, b: seq<byte>,
                            name: seq<byte>, icon: seq<byte>)
    requires Loaded(d, prev) && Fits(a) && Fits(b) && Fits(name) && Fits(icon)
    ensures var d2 := Register(Register(d, a, name, icon).dir, b, name, icon).dir;
            && Known(d2.apps, a)
            && Deserialize(d2.file.value) == NormalizeAll(prev + [NewRecord(b, name, icon)])
            && Deserialize(d2.file.value) != NormalizeAll(prev + [NewRecord(a, name, icon), NewRecord(b, name, icon)])
  {
    var d1 := Register(d, a, name, icon).dir;
    var d2 := Register(d1, b, name, icon).dir;
    RegisterKeepsLatest(d, prev, a, name, icon);
    RegisterKeepsLatest(d1, prev, b, name, icon);
    assert d2.apps[|d.apps|] == NewRecord(a, name, icon);
    var one, two := prev + [NewRecord(b, name, icon)], prev + [NewRecord(a, name, icon), NewRecord(b, name, icon)];
    assert |NormalizeAll(one)| != |NormalizeAll(two)|;
  }

  /** As written, two registrations in one session leave only the second
      record after the remembered bytes: the first app is missing from the
      file although it is in memory. */
  lemma PersistAsWrittenDropsRecord(d: Directory, prev: seq<NotificationApp>, a: NotificationApp,
                                    b: NotificationApp)
    requires Mirrors(d, prev)
    requires WellSized(a) && a.iconData.Some? && WellSized(b) && b.iconData.Some?
    ensures var d1 := PersistAsWritten(d.(apps := d.apps + [a]), Serialize(a).value);
            var d2 := PersistAsWritten(d1.(apps := d1.apps + [b]), Serialize(b).value);
            && Deserialize(d2.file.value) == NormalizeAll(prev + [b])
            && Deserialize(d2.file.value) != NormalizeAll(prev + [a, b])
  {
    SerializeAllAppend(prev, b);
    DeserializeSerializeAll(prev + [b], []);
    assert SerializeAll(prev + [b]).value + [] == d.oldData + Serialize(b).value;
    DeserializeEmpty();
    assert NormalizeAll(prev + [b]) + [] == NormalizeAll(prev + [b]);
  }

  /** With the intended write, the same two registrations leave both. */
  lemma PersistKeepsBoth(d: Directory, prev: seq<NotificationApp>, a: NotificationApp, b: NotificationApp)
    requires Mirrors(d, prev)
    requires WellSized(a) && a.iconData.Some? && WellSized(b) && b.iconData.Some?
    ensures var d1 := Persist(d.(apps := d.apps + [a]), Serialize(a).value);
            var d2 := Persist(d1.(apps := d1.apps + [b]), Serialize(b).value);
            Deserialize(d2.file.value) == NormalizeAll(prev + [a, b])
  {
    SerializeAllAppend(prev, a);
    SerializeAllAppend(prev + [a], b);
    assert prev + [a] + [b] == prev + [a, b];
    DeserializeSerializeAll(prev + [a, b], []);
    DeserializeEmpty();
    assert NormalizeAll(prev + [a, b]) + [] == NormalizeAll(prev + [a, b]);
    assert SerializeAll(prev + [a, b]).value + [] == d.oldData + Serialize(a).value + Serialize(b).value;
  }
}

=== FILE: inbound.dfy ===
/** The receive loop's handling of one decoded phone message
    (RfcommServerTask.cs 306-347): the kind picks between withdrawing a
    notification and showing one. */
module Inbound {
  import opened Common
  import opened Text
  import opened Kinds
  import opened Protocol
  import opened RemoteTable

  /** What handling a message does outside the remote table. */
  datatype Effect =
    | Nothing
    | DismissHost(id: nat)   // `RemoveNotification`: the host notification goes, then a reconcile pass runs
    | Withdraw(tag: string)  // the toast with this tag leaves the notification history
    | ShowToast(toast: Toast)

  /** The table and toast a `ShowNotification` call leaves, as an outcome. */
  function Displayed(r: (Table, Toast)): Option<(Table, Effect)> {
    Some((r.0, ShowToast(r.1)))
  }

  /** One message: `None` when its kind text is not an int32 (`int.Parse`
      throws, which ends the receive loop). A Remove whose key is a host
      notification number dismisses that notification; any other Remove
      withdraws the phone-only entry with the key. An Add for a phone number
      key is shown only as a text message (key ending "sms") or a call (key
      ending "call"); any other Add is shown as the phone sent it. Open, and
      numbers naming no kind, do nothing. */
  function Dispatch(codes: TypeCodes, t: Table, m: InboundMessage): (r: Option<(Table, Effect)>)
    ensures r.None? <==> ParseInt32(m.action).None?
    ensures r.Some? && r.value.0 != t ==> codes.TypeOf(ParseInt32(m.action).value) in {Some(Remove), Some(Add)}
  {
    match ParseInt32(m.action)
    case None => None
    case Some(v) =>
      match codes.TypeOf(v)
      case Some(Remove) =>
        (match ParseUInt32(m.key)
         case Some(id) => Some((t, DismissHost(id)))
         case None =>
           var (u, tag) := RemoveKey(t, m.key);
           Some((u, if tag.Some? then Withdraw(tag.value) else Nothing)))
      case Some(Add) =>
        if StartsWith(m.key, "+") then
          if EndsWith(m.key, "sms") then Displayed(Show(t, "SMS", "sms", m.title, m.text, m.key, None))
          else if EndsWith(m.key, "call") then
            Displayed(Show(t, "Incoming call", "call", m.title, "Calling...", m.key, None))
          else Some((t, Nothing))
        else Displayed(Show(t, m.appName, m.packageName, m.title, m.text, m.key, Some(m.contentIntent)))
      case _ => Some((t, Nothing))
  }

  /** The kind a well-formed message names. */
  function KindOf(codes: TypeCodes, m: InboundMessage): Option<Type>
    requires ParseInt32(m.action).Some?
  {
    codes.TypeOf(ParseInt32(m.action).value)
  }

  /** A Remove whose key parses as a host notification number leaves the
      phone's table alone and dismisses exactly that host notification; any
      other Remove drops the key's entry and withdraws its toast. */
  lemma DispatchRemove(codes: TypeCodes, t: Table, m: InboundMessage)
    requires ParseInt32(m.action).Some? && KindOf(codes, m) == Some(Remove)
    ensures ParseUInt32(m.key).Some? ==> Dispatch(codes, t, m) == Some((t, DismissHost(ParseUInt32(m.key).value)))
    ensures ParseUInt32(m.key).None? ==>
              && Dispatch(codes, t, m).value.0 == RemoveKey(t, m.key).0
              && (FindKey(t.entries, m.key).Some? <==> Dispatch(codes, t, m).value.1.Withdraw?)
  {
  }

  /** A phone-number key is shown only for a text message, with the body as
      sent, or a call, with the body "Calling..."; any other phone-number
      key is ignored. Neither offers "Open on Device". */
  lemma DispatchPhoneKey(codes: TypeCodes, t: Table, m: InboundMessage)
    requires ParseInt32(m.action).Some? && KindOf(codes, m) == Some(Add) && StartsWith(m.key, "+")
    ensures var r := Dispatch(codes, t, m).value;
            && (EndsWith(m.key, "sms") ==>
                  r.1.ShowToast? && r.1.toast.content == m.text && r.1.toast.headerId == "sms"
                  && r.1.toast.title == m.title && !r.1.toast.incomingCall)
            && (!EndsWith(m.key, "sms") && EndsWith(m.key, "call") ==>
                  r.1.ShowToast? && r.1.toast.content == "Calling..." && r.1.toast.headerId == "call"
                  && r.1.toast.incomingCall)
            && (!EndsWith(m.key, "sms") && !EndsWith(m.key, "call") ==> r == (t, Nothing))
            && (r.1.ShowToast? ==> OpenOnDevice(m.key) !in r.1.toast.buttons && Reply(m.key, ReplyBox) in r.1.toast.buttons)
  {
    if EndsWith(m.key, "sms") {
      assert m.key[|m.key| - 1] == "sms"[2] != "call"[3];
    }
  }

  /** Any other Add is shown with the phone's texts, and offers "Open on
      Device" exactly when the phone sent an intent. */
  lemma DispatchAppKey(codes: TypeCodes, t: Table, m: InboundMessage)
    requires ParseInt32(m.action).Some? && KindOf(codes, m) == Some(Add) && !StartsWith(m.key, "+")
    ensures var r := Dispatch(codes, t, m).value;
            && r.1.ShowToast?
            && r.0 == Show(t, m.appName, m.packageName, m.title, m.text, m.key, Some(m.contentIntent)).0
            && r.1.toast.title == m.title && r.1.toast.content == m.text && r.1.toast.attribution == m.appName
            && (OpenOnDevice(m.key) in r.1.toast.buttons <==> m.contentIntent != "")
  {
  }

  /** Handling a message keeps the table valid. */
  lemma DispatchKeepsValid(codes: TypeCodes, t: Table, m: InboundMessage)
    requires Valid(t) && Dispatch(codes, t, m).Some?
    ensures Valid(Dispatch(codes, t, m).value.0)
  {
    match KindOf(codes, m)
    case Some(Remove) =>
      RemoveKeyFrames(t, m.key);
    case Some(Add) =>
      if !StartsWith(m.key, "+") {
        ShowKeepsValid(t, m.appName, m.packageName, m.title, m.text, m.key, Some(m.contentIntent));
      } else if EndsWith(m.key, "sms") {
        ShowKeepsValid(t, "SMS", "sms", m.title, m.text, m.key, None);
      } else {
        ShowKeepsValid(t, "Incoming call", "call", m.title, "Calling...", m.key, None);
      }
    case _ =>
  }
}

=== FILE: kinds.dfy ===
/** The message kinds of the bridge protocol. The `Type` enum's numeric
    values are declared outside the modelled files, so they are a parameter:
    any three distinct int32 values. */
module Kinds {
  import opened Common

  datatype Type = Remove | Add | Open

  /** The numbers `(int)Type.Remove`, `(int)Type.Add` and `(int)Type.Open`. */
  datatype TypeCodes = TypeCodes(remove: int, add: int, open: int) {

    predicate Valid() {
      && IsInt32(remove) && IsInt32(add) && IsInt32(open)
      && remove != add && remove != open && add != open
    }

    function Code(t: Type): int {
      match t
      case Remove => remove
      case Add => add
      case Open => open
    }

    /** The named member a number cast to `Type` equals, if any; casting
        never fails, a number matching no member just matches no `case`. */
    function TypeOf(v: int): (r: Option<Type>)
      ensures r.Some? ==> Code(r.value) == v
      ensures r.None? ==> forall t: Type :: Code(t) != v
    {
      if v == remove then Some(Remove)
      else if v == add then Some(Add)
      else if v == open then Some(Open)
      else None
    }
  }

  /** With distinct codes, a kind's code casts back to that kind. */
  lemma TypeOfCode(codes: TypeCodes, t: Type)
    requires codes.Valid()
    ensures codes.TypeOf(codes.Code(t)) == Some(t)
  {
  }
}

=== FILE: protocol.dfy ===
/** The bridge's length-table text framing (Tasks/RfcommServerTask.cs).

    A message is a table of decimal field lengths, each followed by ';', and
    then the fields themselves, concatenated with no separator. Outbound
    messages (`GenerateMessage`) carry five fields, inbound ones seven. The
    decoder splits on every ';', re-joins the pieces after the table, and
    cuts the fields out of that text by the tabled lengths, so a ';' inside
    a field survives. */
module Protocol {
  import opened Common
  import opened Text
  import opened Kinds

  // ---------------------------------------------------------------------
  // Encoding

  /** The fields one after another, with nothing in between. */
  function Concat(fields: seq<string>): (r: string)
    decreases |fields|
  {
    if |fields| == 0 then "" else fields[0] + Concat(fields[1..])
  }

  /** The length table: every field's length in decimal, each followed by ';'. */
  function Header(fields: seq<string>): string
    decreases |fields|
  {
    if |fields| == 0 then "" else NatToDecimal(|fields[0]|) + ";" + Header(fields[1..])
  }

  /** The decimal lengths alone, as `Split` returns them from a header. */
  function LengthTexts(fields: seq<string>): (r: seq<string>)
    ensures |r| == |fields|
    ensures forall k :: 0 <= k < |r| ==> r[k] == NatToDecimal(|fields[k]|)
    decreases |fields|
  {
    if |fields| == 0 then [] else [NatToDecimal(|fields[0]|)] + LengthTexts(fields[1..])
  }

  function EncodeLengthTable(fields: seq<string>): string {
    Header(fields) + Concat(fields)
  }

  // ---------------------------------------------------------------------
  // Decoding

  /** The text the fields are cut from: the pieces after the first `n`,
      joined back with ';' (empty when there are not more than `n` pieces). */
  function FieldText(msg: string, n: nat): string {
    var parts := Split(msg, ';');
    if n < |parts| then Join(parts[n..], ';') else ""
  }

  /** Table entries `i`, `i + 1`, ... parse as int32s giving the lengths
      of `fields`, in order. */
  predicate Tabled(parts: seq<string>, i: nat, fields: seq<string>)
    decreases |fields|
  {
    |fields| == 0 ||
    (i < |parts| && ParseInt32(parts[i]) == Some(|fields[0]|) && Tabled(parts, i + 1, fields[1..]))
  }

  /** The same, entry by entry. */
  lemma {:induction false} TabledEntries(parts: seq<string>, i: nat, fields: seq<string>, k: nat)
    requires Tabled(parts, i, fields) && k < |fields|
    ensures i + k < |parts| && ParseInt32(parts[i + k]) == Some(|fields[k]|)
    decreases k
  {
    if k > 0 {
      TabledEntries(parts, i + 1, fields[1..], k - 1);
    }
  }

  /** Cuts fields `i` to `n - 1` out of `text` from `location` on, field `i`
      being `int.Parse(parts[i])` characters long. `None` is the exception
      the receive loop would meet: a missing table entry, a length that does
      not parse as an int32, a negative length, or one running past the text. */
  function ExtractFields(parts: seq<string>, text: string, n: nat, i: nat, location: nat)
    : (r: Option<seq<string>>)
    requires i <= n && location <= |text|
    ensures r.Some? ==> |r.value| == n - i
    decreases n - i
  {
    if i == n then Some([])
    else if i >= |parts| then None
    else
      match ParseInt32(parts[i])
      case None => None
      case Some(len) =>
        if len < 0 || location + len > |text| then None
        else
          match ExtractFields(parts, text, n, i + 1, location + len)
          case None => None
          case Some(rest) => Some([text[location..location + len]] + rest)
  }

  /** What a successful cut means: the table's entries are the fields'
      lengths and the text from `location` on holds the fields in order. */
  lemma {:induction false} ExtractFieldsShape(parts: seq<string>, text: string, n: nat, i: nat, location: nat)
    requires i <= n && location <= |text| && ExtractFields(parts, text, n, i, location).Some?
    ensures var r := ExtractFields(parts, text, n, i, location).value;
            && location + |Concat(r)| <= |text|
            && text[location..location + |Concat(r)|] == Concat(r)
            && Tabled(parts, i, r)
    decreases n - i
  {
    if i < n {
      ExtractUnfold(parts, text, n, i, location);
      var len := ParseInt32(parts[i]).value;
      var rest := ExtractFields(parts, text, n, i + 1, location + len).value;
      ExtractFieldsShape(parts, text, n, i + 1, location + len);
      ShapeCons(parts, text, i, location, text[location..location + len], rest);
    }
  }

  /** What a successful cut at `i < n` is made of. */
  lemma ExtractUnfold(parts: seq<string>, text: string, n: nat, i: nat, location: nat)
    requires i < n && location <= |text| && ExtractFields(parts, text, n, i, location).Some?
    ensures i < |parts| && ParseInt32(parts[i]).Some? && ParseInt32(parts[i]).value >= 0
    ensures location + ParseInt32(parts[i]).value <= |text|
    ensures ExtractFields(parts, text, n, i + 1, location + ParseInt32(parts[i]).value).Some?
    ensures ExtractFields(parts, text, n, i, location).value
         == [text[location..location + ParseInt32(parts[i]).value]]
            + ExtractFields(parts, text, n, i + 1, location + ParseInt32(parts[i]).value).value
  {
  }

  /** The step of `ExtractFieldsShape`: one more field in front. */
  lemma ShapeCons(parts: seq<string>, text: string, i: nat, location: nat, field: string, rest: seq<string>)
    requires i < |parts| && ParseInt32(parts[i]) == Some(|field|)
    requires location + |field| <= |text| && text[location..location + |field|] == field
    requires location + |field| + |Concat(rest)| <= |text|
    requires text[location + |field|..location + |field| + |Concat(rest)|] == Concat(rest)
    requires Tabled(parts, i + 1, rest)
    ensures location + |Concat([field] + rest)| <= |text|
    ensures text[location..location + |Concat([field] + rest)|] == Concat([field] + rest)
    ensures Tabled(parts, i, [field] + rest)
  {
    var r := [field] + rest;
    assert r[1..] == rest;
    assert Concat(r) == field + Concat(rest);
    SliceJoin(text, location, field, Concat(rest));
  }

  /** A slice holding `x` and then `y` holds `x + y`. */
  lemma SliceJoin(text: string, at: nat, x: string, y: string)
    requires at + |x| + |y| <= |text|
    requires text[at..at + |x|] == x && text[at + |x|..at + |x| + |y|] == y
    ensures text[at..at + |x| + |y|] == x + y
  {
    assert text[at..at + |x| + |y|] == text[at..at + |x|] + text[at + |x|..at + |x| + |y|];
  }

  /** Decodes an `n`-field length-table message (the receive loop uses
      `n == 7`). On success there are `n` fields, the table's entries are
      their lengths, and the text after the `n`-th ';' starts with the fields
      in order; anything after them is ignored. */
  function DecodeLengthTable(msg: string, n: nat): (r: Option<seq<string>>)
    ensures r.Some? ==> |r.value| == n
    ensures r.Some? ==> StartsWith(FieldText(msg, n), Concat(r.value))
    ensures r.Some? ==> Tabled(Split(msg, ';'), 0, r.value)
  {
    var r := ExtractFields(Split(msg, ';'), FieldText(msg, n), n, 0, 0);
    if r.Some? then ExtractFieldsShape(Split(msg, ';'), FieldText(msg, n), n, 0, 0); r else r
  }

  // ---------------------------------------------------------------------
  // Round trip

  /** A header followed by anything splits into the tabled lengths first. */
  lemma {:induction false} SplitHeader(fields: seq<string>, rest: string)
    ensures Split(Header(fields) + rest, ';') == LengthTexts(fields) + Split(rest, ';')
    decreases |fields|
  {
    if |fields| > 0 {
      var d := NatToDecimal(|fields[0]|);
      assert ';' !in d;
      var tail := Header(fields[1..]) + rest;
      assert Header(fields) + rest == d + [';'] + tail;
      SplitCons(d, ';', tail);
      SplitHeader(fields[1..], rest);
      assert LengthTexts(fields) == [d] + LengthTexts(fields[1..]);
    } else {
      assert Header(fields) + rest == rest;
    }
  }

  /** A slice holding `x + y` holds `x` and then `y`. */
  lemma SliceSplit(text: string, at: nat, x: string, y: string)
    requires at + |x| + |y| <= |text| && text[at..at + |x| + |y|] == x + y
    ensures text[at..at + |x|] == x
    ensures text[at + |x|..at + |x| + |y|] == y
  {
    assert text[at..at + |x|] == (x + y)[..|x|];
    assert text[at + |x|..at + |x| + |y|] == (x + y)[|x|..];
  }

  /** The table entries from `i` on are the lengths of `fields`, and the
      text from `location` on holds the fields: they are cut out exactly. */
  lemma {:induction false} ExtractEncoded(fields: seq<string>, parts: seq<string>, text: string,
                                          n: nat, i: nat, location: nat)
    requires forall k :: 0 <= k < |fields| ==> Fits(fields[k])
    requires n == i + |fields| <= |parts| && parts[i..n] == LengthTexts(fields)
    requires location + |Concat(fields)| <= |text|
    requires text[location..location + |Concat(fields)|] == Concat(fields)
    ensures ExtractFields(parts, text, n, i, location) == Some(fields)
    decreases |fields|
  {
    if |fields| > 0 {
      EncodedText(fields, text, location);
      TableHead(fields, parts, n, i);
      ExtractEncoded(fields[1..], parts, text, n, i + 1, location + |fields[0]|);
      ExtractCons(parts, text, n, i, location, fields);
    } else {
      assert fields == [] && n == i;
      ExtractDone(parts, text, n, location);
    }
  }

  /** The text of an encoded message holds its first field and then the
      text of the rest. */
  lemma EncodedText(fields: seq<string>, text: string, location: nat)
    requires |fields| > 0 && location + |Concat(fields)| <= |text|
    requires text[location..location + |Concat(fields)|] == Concat(fields)
    ensures location + |fields[0]| + |Concat(fields[1..])| <= |text|
    ensures text[location..location + |fields[0]|] == fields[0]
    ensures text[location + |fields[0]|..location + |fields[0]| + |Concat(fields[1..])|] == Concat(fields[1..])
  {
    ConcatCons(fields);
    SliceCons(text, location, Concat(fields), fields[0], Concat(fields[1..]));
  }

  lemma SliceCons(text: string, at: nat, c: string, x: string, y: string)
    requires c == x + y && at + |c| <= |text| && text[at..at + |c|] == c
    ensures at + |x| + |y| <= |text|
    ensures text[at..at + |x|] == x
    ensures text[at + |x|..at + |x| + |y|] == y
  {
    SliceSplit(text, at, x, y);
  }

  lemma ConcatCons(fields: seq<string>)
    requires |fields| > 0
    ensures Concat(fields) == fields[0] + Concat(fields[1..])
  {
  }

  /** A first field cut where the table says, before the rest. */
  lemma ExtractCons(parts: seq<string>, text: string, n: nat, i: nat, location: nat, fields: seq<string>)
    requires |fields| > 0 && i < n && i < |parts| && ParseInt32(parts[i]) == Some(|fields[0]|)
    requires location + |fields[0]| <= |text| && text[location..location + |fields[0]|] == fields[0]
    requires i + 1 <= n && ExtractFields(parts, text, n, i + 1, location + |fields[0]|) == Some(fields[1..])
    ensures ExtractFields(parts, text, n, i, location) == Some(fields)
  {
    ExtractStep(parts, text, n, i, location, |fields[0]|, fields[1..]);
    assert [fields[0]] + fields[1..] == fields;
  }

  lemma ExtractDone(parts: seq<string>, text: string, n: nat, location: nat)
    requires location <= |text|
    ensures ExtractFields(parts, text, n, n, location) == Some([])
  {
  }

  /** The first tabled length parses back; the rest of the table is the tail's. */
  lemma TableHead(fields: seq<string>, parts: seq<string>, n: nat, i: nat)
    requires 0 < |fields| && forall k :: 0 <= k < |fields| ==> Fits(fields[k])
    requires n == i + |fields| <= |parts| && parts[i..n] == LengthTexts(fields)
    ensures ParseInt32(parts[i]) == Some(|fields[0]|)
    ensures parts[i + 1..n] == LengthTexts(fields[1..])
    ensures forall k :: 0 <= k < |fields[1..]| ==> Fits(fields[1..][k])
  {
    assert parts[i] == LengthTexts(fields)[0] == NatToDecimal(|fields[0]|);
    ParseInt32OfLength(|fields[0]|);
    assert parts[i + 1..n] == LengthTexts(fields)[1..];
  }

  /** One turn of the cutting loop: a good entry cuts its field and goes on. */
  lemma ExtractStep(parts: seq<string>, text: string, n: nat, i: nat, location: nat, len: nat,
                    rest: seq<string>)
    requires i < n && i < |parts| && ParseInt32(parts[i]) == Some(len)
    requires location + len <= |text|
    requires ExtractFields(parts, text, n, i + 1, location + len) == Some(rest)
    ensures ExtractFields(parts, text, n, i, location) == Some([text[location..location + len]] + rest)
  {
  }

  /** Decoding an encoded message gives back exactly its fields, whatever
      text follows it; fields may contain ';'. */
  lemma DecodeEncode(fields: seq<string>, extra: string)
    requires forall k :: 0 <= k < |fields| ==> Fits(fields[k])
    ensures DecodeLengthTable(EncodeLengthTable(fields) + extra, |fields|) == Some(fields)
  {
    var n := |fields|;
    var msg := EncodeLengthTable(fields) + extra;
    var body := Concat(fields) + extra;
    assert msg == Header(fields) + body;
    SplitHeader(fields, body);
    var parts := Split(msg, ';');
    assert parts[n..] == Split(body, ';');
    assert parts[0..n] == LengthTexts(fields);
    JoinSplit(body, ';');
    assert FieldText(msg, n) == body;
    assert body[0..|Concat(fields)|] == Concat(fields);
    ExtractEncoded(fields, parts, body, n, 0, 0);
  }

  // ---------------------------------------------------------------------
  // Outbound messages

  /** One message the bridge queues for the phone. */
  datatype Outbound = Outbound(kind: Type, id: string, title: string, body: string, appName: string)

  /** `GenerateMessage`: the five-field length table of the kind's number in
      decimal, the id, the title, the body and the app name. */
  function GenerateMessage(codes: TypeCodes, kind: Type, id: string, title: string, body: string,
                           appName: string): string
  {
    EncodeLengthTable([IntToDecimal(codes.Code(kind)), id, title, body, appName])
  }

  /** The text queued for a message. */
  function Wire(codes: TypeCodes, m: Outbound): string {
    GenerateMessage(codes, m.kind, m.id, m.title, m.body, m.appName)
  }

  predicate OutboundFits(m: Outbound) {
    Fits(m.id) && Fits(m.title) && Fits(m.body) && Fits(m.appName)
  }

  /** How the phone reads a queued message: the five-field version of the
      receive loop's decoder, with the first field cast to `Type`. */
  function DecodeOutbound(codes: TypeCodes, s: string): (r: Option<Outbound>)
    ensures r.Some? ==> DecodeLengthTable(s, 5).Some?
    ensures r.Some? ==> DecodeLengthTable(s, 5).value[1..]
                        == [r.value.id, r.value.title, r.value.body, r.value.appName]
  {
    match DecodeLengthTable(s, 5)
    case None => None
    case Some(f) =>
      match ParseInt32(f[0])
      case None => None
      case Some(v) =>
        match codes.TypeOf(v)
        case None => None
        case Some(t) => Some(Outbound(t, f[1], f[2], f[3], f[4]))
  }

  /** Every queued message decodes back to itself: `GenerateMessage` loses
      nothing, even with ';' inside the title or body. */
  lemma WireRoundTrip(codes: TypeCodes, m: Outbound)
    requires codes.Valid() && OutboundFits(m)
    ensures DecodeOutbound(codes, Wire(codes, m)) == Some(m)
  {
    var code := IntToDecimal(codes.Code(m.kind));
    var fields := [code, m.id, m.title, m.body, m.appName];
    assert Fits(code) by {
      var v := codes.Code(m.kind);
      var a: nat := if v < 0 then -v else v;
      DecimalLengthBound(a);
    }
    DecodeEncode(fields, "");
    assert EncodeLengthTable(fields) + "" == Wire(codes, m);
    ParseIntToDecimal(codes.Code(m.kind));
    TypeOfCode(codes, m.kind);
  }

  /** A decimal form has at most one digit per factor of ten. */
  lemma {:induction false} DecimalLengthBound(a: nat)
    ensures |NatToDecimal(a)| <= 1 + a / 10
    decreases a
  {
    if a >= 10 {
      DecimalLengthBound(a / 10);
    }
  }

  /** Messages that differ queue different texts. */
  lemma WireInjective(codes: TypeCodes, m1: Outbound, m2: Outbound)
    requires codes.Valid() && OutboundFits(m1) && OutboundFits(m2)
    requires Wire(codes, m1) == Wire(codes, m2)
    ensures m1 == m2
  {
    WireRoundTrip(codes, m1);
    WireRoundTrip(codes, m2);
  }

  // ---------------------------------------------------------------------
  // Inbound messages

  /** The seven fields the phone sends; `action` is still text. */
  datatype InboundMessage = InboundMessage(action: string, key: string, title: string, text: string,
                                           appName: string, packageName: string, contentIntent: string)

  function InboundFields(m: InboundMessage): seq<string> {
    [m.action, m.key, m.title, m.text, m.appName, m.packageName, m.contentIntent]
  }

  /** The receive loop's parse of one message (RfcommServerTask.cs 287-312). */
  function ParseInbound(msg: string): (r: Option<InboundMessage>)
    ensures r.Some? <==> DecodeLengthTable(msg, 7).Some?
    ensures r.Some? ==> InboundFields(r.value) == DecodeLengthTable(msg, 7).value
  {
    match DecodeLengthTable(msg, 7)
    case None => None
    case Some(f) => FieldsRoundTrip(f); Some(FromFields(f))
  }

  function FromFields(f: seq<string>): InboundMessage
    requires |f| == 7
  {
    InboundMessage(f[0], f[1], f[2], f[3], f[4], f[5], f[6])
  }

  lemma FieldsRoundTrip(f: seq<string>)
    requires |f| == 7
    ensures InboundFields(FromFields(f)) == f
  {
  }

  predicate InboundFits(m: InboundMessage) {
    forall k :: 0 <= k < 7 ==> Fits(InboundFields(m)[k])
  }

  /** A message framed the way the receive loop expects is read back field
      for field, whatever trails it. */
  lemma ParseInboundRoundTrip(m: InboundMessage, extra: string)
    requires InboundFits(m)
    ensures ParseInbound(EncodeLengthTable(InboundFields(m)) + extra) == Some(m)
  {
    DecodeEncode(InboundFields(m), extra);
  }

  /** A first table entry that is not a number ends the parse, so (the
      exception escaping to the loop's outer catch) the session. */
  lemma BadLengthRejected(msg: string, n: nat)
    requires 0 < n && ParseInt32(Split(msg, ';')[0]).None?
    ensures DecodeLengthTable(msg, n).None?
  {
  }
}

=== FILE: reconciler.dfy ===
/** `UpdateNotifications` (Tasks/RfcommServerTask.cs 501-615): brings the
    tracked list of the host's toast notifications in line with a fresh
    snapshot from the notification listener, newest first, and queues an Add
    or Remove message for the phone for every change it makes.

    The pass runs in two loops. The first drops every tracked notification
    the snapshot no longer has. The second walks the snapshot: a notification
    already tracked elsewhere is moved into place, a new one is inserted,
    its app registered in the directory when first seen, and announced when
    the directory allows it. Messages go only while the background task is
    active, and never for the bridge's own notifications. Any exception ends
    the pass where it is; what was done up to there stays done. */
module Reconciler {
  import opened Common
  import opened Text
  import opened Bytes
  import opened Kinds
  import opened Protocol
  import opened AppRecords
  import opened AppDirectory

  // ---------------------------------------------------------------------
  // Data

  /** What `UserNotification.AppInfo` gives; `displayName` is `None` when
      reading `DisplayInfo.DisplayName` throws. */
  datatype AppInfo = AppInfo(appUserModelId: string, packageFamilyName: string,
                             displayName: Option<string>)

  /** One toast on the host. `texts` are the text elements of its generic
      binding (`None`: it has none); `logo` is the app's logo bytes (`None`:
      fetching them throws). */
  datatype Notification = Notification(id: nat, app: AppInfo, texts: Option<seq<string>>,
                                       logo: Option<seq<byte>>)

  /** The task's settings: whether forwarding is on (`IsBackgroundTaskActive`)
      and the bridge's own package family name. */
  datatype Env = Env(active: bool, selfFamily: string)

  /** The state a pass leaves: the tracked list, the directory, the messages
      queued, in order, and whether an exception ended the pass early. */
  datatype Pass = Pass(tracked: seq<Notification>, dir: Directory, events: seq<Outbound>, aborted: bool)

  function Ids(s: seq<Notification>): (r: seq<nat>)
    ensures |r| == |s|
    ensures forall k :: 0 <= k < |s| ==> r[k] == s[k].id
    decreases |s|
  {
    if |s| == 0 then [] else [s[0].id] + Ids(s[1..])
  }

  /** Messages are sent for a notification only while forwarding is on and
      when it is not the bridge's own. */
  predicate Forwards(env: Env, n: Notification) {
    env.active && n.app.packageFamilyName != env.selfFamily
  }

  /** The directory key of a notification's app, as the file stores it. */
  function KeyOf(n: Notification): seq<byte> {
    Utf8(n.app.appUserModelId)
  }

  // ---------------------------------------------------------------------
  // Messages (`SendNotification`, 717-758)

  /** The body: every text element after the first, one per line. */
  function BodyOf(texts: seq<string>): string {
    if |texts| <= 1 then "" else Join(texts[1..], '\n')
  }

  /** The Add message for a notification. Without a generic binding it is
      titled "No title" with empty body and app name; with one, the first
      text is the title, the others the body, and the app name is the
      display name ("" if reading it throws). */
  function AddEvent(n: Notification): (e: Outbound)
    ensures e.kind == Add && e.id == NatToDecimal(n.id)
    ensures n.texts.None? ==> e.title == "No title" && e.body == "" && e.appName == ""
    ensures n.texts.Some? && |n.texts.value| > 0 ==> e.title == n.texts.value[0]
    ensures n.texts.Some? && |n.texts.value| == 0 ==> e.title == "" && e.body == ""
    ensures n.texts.Some? ==> e.appName == n.app.displayName.GetOr("")
    ensures n.texts.Some? ==> e.body == (if |n.texts.value| <= 1 then "" else Join(n.texts.value[1..], '\n'))
  {
    match n.texts
    case None => Outbound(Add, NatToDecimal(n.id), "No title", "", "")
    case Some(t) =>
      Outbound(Add, NatToDecimal(n.id), if |t| == 0 then "" else t[0], BodyOf(t), n.app.displayName.GetOr(""))
  }

  /** The Remove message: just the id. */
  function RemoveEvent(n: Notification): (e: Outbound)
    ensures e == Outbound(Remove, NatToDecimal(n.id), "", "", "")
  {
    Outbound(Remove, NatToDecimal(n.id), "", "", "")
  }

  /** The phone gets every text element back: splitting the body at line
      breaks gives the texts after the title, when no text holds a line
      break itself. */
  lemma AddEventBodyLines(n: Notification)
    requires n.texts.Some? && |n.texts.value| >= 2
    requires forall k :: 0 <= k < |n.texts.value| ==> '\n' !in n.texts.value[k]
    ensures Split(AddEvent(n).body, '\n') == n.texts.value[1..]
  {
    var t := n.texts.value;
    assert forall k :: 0 <= k < |t[1..]| ==> '\n' !in t[1..][k] by {
      forall k | 0 <= k < |t[1..]| ensures '\n' !in t[1..][k] {
        assert t[1..][k] == t[k + 1];
      }
    }
    SplitJoin(t[1..], '\n');
  }

  /** Different notifications give different message ids. */
  lemma EventIdsDistinct(n: Notification, m: Notification)
    requires n.id != m.id
    ensures AddEvent(n).id != AddEvent(m).id && RemoveEvent(n).id != RemoveEvent(m).id
  {
    if NatToDecimal(n.id) == NatToDecimal(m.id) {
      NatToDecimalInjective(n.id, m.id);
    }
  }

  // ---------------------------------------------------------------------
  // First loop: drop what the snapshot no longer has (514-528)

  predicate HasId(s: seq<Notification>, id: nat) {
    id in Ids(s)
  }

  /** `Notifications.RemoveAt(i); i--` over the tracked list: the survivors
      in their order, and a Remove message for each dropped notification
      that is forwarded, in list order. */
  function RemoveVanished(env: Env, tracked: seq<Notification>, snap: seq<Notification>)
    : (r: (seq<Notification>, seq<Outbound>))
    ensures forall x :: x in r.0 <==> x in tracked && HasId(snap, x.id)
    ensures |r.0| <= |tracked|
    ensures forall e :: e in r.1 ==>
              exists x :: x in tracked && !HasId(snap, x.id) && Forwards(env, x) && e == RemoveEvent(x)
    ensures forall x :: x in tracked && !HasId(snap, x.id) && Forwards(env, x) ==> RemoveEvent(x) in r.1
    ensures !env.active ==> r.1 == []
    ensures DistinctIds(tracked) ==> forall a, b :: 0 <= a < b < |r.1| ==> r.1[a] != r.1[b]
    decreases |tracked|
  {
    if |tracked| == 0 then ([], [])
    else
      var x := tracked[0];
      var rest := RemoveVanished(env, tracked[1..], snap);
      assert forall y :: y in tracked <==> y == x || y in tracked[1..];
      if HasId(snap, x.id) then ([x] + rest.0, rest.1)
      else if Forwards(env, x) then
        if DistinctIds(tracked) then
          DistinctUncons(tracked);
          RemoveHeadFresh(x, tracked[1..], rest.1);
          (rest.0, [RemoveEvent(x)] + rest.1)
        else (rest.0, [RemoveEvent(x)] + rest.1)
      else rest
  }

  /** The tail of a list without repeated ids has none either, and does not
      hold the head's id. */
  lemma DistinctUncons(s: seq<Notification>)
    requires |s| > 0 && DistinctIds(s)
    ensures DistinctIds(s[1..]) && !HasId(s[1..], s[0].id)
  {
    forall a, b | 0 <= a < b < |s| - 1 ensures s[1..][a].id != s[1..][b].id {
      assert s[a + 1].id != s[b + 1].id;
    }
  }

  /** The Remove of a notification is not among Removes of others with
      different ids. */
  lemma RemoveHeadFresh(x: Notification, tail: seq<Notification>, out: seq<Outbound>)
    requires !HasId(tail, x.id)
    requires forall e :: e in out ==> exists y :: y in tail && e == RemoveEvent(y)
    ensures RemoveEvent(x) !in out
  {
    if RemoveEvent(x) in out {
      var y :| y in tail && RemoveEvent(x) == RemoveEvent(y);
      var k :| 0 <= k < |tail| && tail[k] == y;
      assert Ids(tail)[k] == y.id;
      EventIdsDistinct(x, y);
    }
  }

  /** The survivors keep their relative order: they are a subsequence. */
  predicate Subsequence<T(==)>(a: seq<T>, b: seq<T>)
    decreases |b|
  {
    |a| == 0 || (|b| > 0 && ((a[0] == b[0] && Subsequence(a[1..], b[1..])) || Subsequence(a, b[1..])))
  }

  lemma {:induction false} RemoveVanishedOrder(env: Env, tracked: seq<Notification>, snap: seq<Notification>)
    ensures Subsequence(RemoveVanished(env, tracked, snap).0, tracked)
    decreases |tracked|
  {
    if |tracked| > 0 {
      RemoveVanishedOrder(env, tracked[1..], snap);
      var rest := RemoveVanished(env, tracked[1..], snap).0;
      if HasId(snap, tracked[0].id) {
        assert ([tracked[0]] + rest)[1..] == rest;
      }
    }
  }

  // ---------------------------------------------------------------------
  // Second loop: move, insert, register, announce (533-608)

  /** `FindIndexOfNotification`: the first position holding `id`. */
  function IndexOfId(s: seq<Notification>, id: nat): (r: Option<nat>)
    ensures r.Some? ==> r.value < |s| && s[r.value].id == id
    ensures r.Some? ==> forall k :: 0 <= k < r.value ==> s[k].id != id
    ensures r.None? <==> !HasId(s, id)
    decreases |s|
  {
    if |s| == 0 then None
    else if s[0].id == id then Some(0)
    else
      match IndexOfId(s[1..], id)
      case None => assert Ids(s) == [s[0].id] + Ids(s[1..]); None
      case Some(j) => assert Ids(s) == [s[0].id] + Ids(s[1..]); Some(j + 1)
  }

  /** `Collection.Insert(i, x)`. */
  function InsertAt<T>(s: seq<T>, i: nat, x: T): (r: seq<T>)
    requires i <= |s|
    ensures |r| == |s| + 1 && r[i] == x && r[..i] == s[..i] && r[i + 1..] == s[i..]
  {
    s[..i] + [x] + s[i..]
  }

  /** `ObservableCollection.Move(from, to)`: the item is taken out, then put
      back at `to`; `None` when `to` is past the shortened list, which
      throws once the item is already out (the shortened list is returned
      with it). */
  function Move<T>(s: seq<T>, from: nat, to: nat): (r: (seq<T>, bool))
    requires from < |s|
    ensures r.1 <==> to <= |s| - 1
    ensures r.1 ==> |r.0| == |s| && r.0[to] == s[from]
    ensures !r.1 ==> r.0 == s[..from] + s[from + 1..]
  {
    var item := s[from];
    var shortened := s[..from] + s[from + 1..];
    if to <= |shortened| then (InsertAt(shortened, to, item), true) else (shortened, false)
  }

  /** Moving the first holder of an id into place `i` leaves the places
      before `i` alone when none of them holds the id. */
  lemma MoveKeepsPrefix(s: seq<Notification>, id: nat, j: nat, i: nat)
    requires j < |s| && s[j].id == id && i <= |s| - 1 && i != j
    ensures !HasId(s[..i], id) ==> Move(s, j, i).0[..i] == s[..i]
  {
    if !HasId(s[..i], id) {
      var shortened := s[..j] + s[j + 1..];
      assert shortened[..i] == s[..i];
    }
  }

  /** A registration of the notification's app cannot throw: its display
      name can be read and every array fits. */
  predicate Registrable(n: Notification) {
    && n.app.displayName.Some?
    && Fits(KeyOf(n)) && Fits(Utf8(n.app.displayName.value)) && Fits(IconOf(n))
  }

  /** The bytes of a new app's logo: nothing when fetching it throws. */
  function IconOf(n: Notification): seq<byte> {
    n.logo.GetOr([])
  }

  /** Inserting a notification not tracked yet, with the settings reload,
      the registration of an unknown app of another package, and the Add
      message when forwarding and the directory allows the app. */
  function InsertNew(env: Env, n: Notification, i: nat, st: Pass): (r: Pass)
    requires i <= |st.tracked| && !st.aborted
    ensures r.tracked == InsertAt(st.tracked, i, n)
    ensures r.aborted ==> r.events == st.events
    ensures r.events == st.events || r.events == st.events + [AddEvent(n)]
    ensures r.events != st.events ==> Forwards(env, n) && Allows(r.dir.apps, KeyOf(n))
    ensures !r.aborted && Forwards(env, n) && Allows(r.dir.apps, KeyOf(n)) ==> r.events == st.events + [AddEvent(n)]
    ensures !r.aborted && n.app.packageFamilyName != env.selfFamily ==> Known(r.dir.apps, KeyOf(n))
    ensures r.aborted ==> n.app.packageFamilyName != env.selfFamily && !Known(ReloadIfFlagged(st.dir).apps, KeyOf(n))
    ensures r.aborted ==> !Registrable(n)
    ensures var d := ReloadIfFlagged(st.dir);
              !Known(d.apps, KeyOf(n)) && n.app.packageFamilyName != env.selfFamily && Registrable(n) ==>
                !r.aborted && r.dir == Register(d, KeyOf(n), Utf8(n.app.displayName.value), IconOf(n)).dir
    ensures var d := ReloadIfFlagged(st.dir);
              !Known(d.apps, KeyOf(n)) && n.app.packageFamilyName != env.selfFamily && !Registrable(n) ==>
                r.aborted && r.events == st.events
    ensures var d := ReloadIfFlagged(st.dir);
              !Known(d.apps, KeyOf(n)) && n.app.packageFamilyName != env.selfFamily ==>
                r.dir == (if n.app.displayName.None? then d
                          else Register(d, KeyOf(n), Utf8(n.app.displayName.value), IconOf(n)).dir)
    ensures Known(ReloadIfFlagged(st.dir).apps, KeyOf(n)) || n.app.packageFamilyName == env.selfFamily ==>
              !r.aborted && r.dir == ReloadIfFlagged(st.dir)
  {
    var tracked := InsertAt(st.tracked, i, n);
    var dir := ReloadIfFlagged(st.dir);
    if !Known(dir.apps, KeyOf(n)) && n.app.packageFamilyName != env.selfFamily then
      match n.app.displayName
      case None => Pass(tracked, dir, st.events, true)
      case Some(name) =>
        var reg := Register(dir, KeyOf(n), Utf8(name), IconOf(n));
        if reg.failed then Pass(tracked, reg.dir, st.events, true)
        else Announce(env, n, Pass(tracked, reg.dir, st.events, false))
    else Announce(env, n, Pass(tracked, dir, st.events, false))
  }

  /** The first notification of an app the directory does not know yet,
      after the settings reload: the app is registered as allowed, with the
      notification's logo, the file is written, and the notification is
      announced while forwarding is on. */
  lemma FirstSightAnnounced(env: Env, n: Notification, i: nat, st: Pass)
    requires i <= |st.tracked| && !st.aborted && !HasId(st.tracked, n.id)
    requires !Known(ReloadIfFlagged(st.dir).apps, KeyOf(n)) && Forwards(env, n) && Registrable(n)
    ensures var r := Step(env, n, i, st); var d := ReloadIfFlagged(st.dir);
              && !r.aborted
              && r.dir.apps == d.apps + [NewRecord(KeyOf(n), Utf8(n.app.displayName.value), IconOf(n))]
              && r.dir.file == Some(d.oldData + Serialize(NewRecord(KeyOf(n), Utf8(n.app.displayName.value), IconOf(n))).value)
              && r.events == st.events + [AddEvent(n)]
  {
    var d := ReloadIfFlagged(st.dir);
    var reg := Register(d, KeyOf(n), Utf8(n.app.displayName.value), IconOf(n));
    assert Allows(reg.dir.apps, KeyOf(n));
  }

  /** The Add message at an insertion, sent when forwarding and some record
      with the app's key is allowed. */
  function Announce(env: Env, n: Notification, st: Pass): (r: Pass)
    ensures r.tracked == st.tracked && r.dir == st.dir && r.aborted == st.aborted
    ensures Forwards(env, n) && Allows(st.dir.apps, KeyOf(n)) ==> r.events == st.events + [AddEvent(n)]
    ensures !(Forwards(env, n) && Allows(st.dir.apps, KeyOf(n))) ==> r.events == st.events
  {
    if Forwards(env, n) && Allows(st.dir.apps, KeyOf(n)) then st.(events := st.events + [AddEvent(n)])
    else st
  }

  /** One turn of the second loop, for the snapshot's `i`-th notification. */
  function Step(env: Env, n: Notification, i: nat, st: Pass): (r: Pass)
    requires i <= |st.tracked| && !st.aborted
    ensures !r.aborted ==> i < |r.tracked| && r.tracked[i].id == n.id
    ensures !r.aborted && !HasId(st.tracked[..i], n.id) ==> r.tracked[..i] == st.tracked[..i]
    ensures |st.events| <= |r.events| <= |st.events| + 1 && r.events[..|st.events|] == st.events
    ensures |r.events| > |st.events| ==> Forwards(env, n) && r.events[|st.events|] == AddEvent(n)
    ensures IndexOfId(st.tracked, n.id) == Some(i) ==> r == st
    ensures IndexOfId(st.tracked, n.id).Some? && IndexOfId(st.tracked, n.id).value != i ==>
              && r.tracked == Move(st.tracked, IndexOfId(st.tracked, n.id).value, i).0 && r.dir == st.dir
              && (r.aborted ==> r.events == st.events)
              && (!r.aborted ==> r.events == st.events + (if Forwards(env, n) then [AddEvent(n)] else []))
    ensures IndexOfId(st.tracked, n.id).None? ==> r == InsertNew(env, n, i, st)
  {
    match IndexOfId(st.tracked, n.id)
    case Some(j) =>
      if j == i then st
      else
        var (moved, ok) := Move(st.tracked, j, i);
        if !ok then st.(tracked := moved, aborted := true)
        else
          MoveKeepsPrefix(st.tracked, n.id, j, i);
          Pass(moved, st.dir, st.events + (if Forwards(env, n) then [AddEvent(n)] else []), false)
    case None =>
      var r := InsertNew(env, n, i, st);
      assert r.tracked[..i] == st.tracked[..i];
      r
  }

  /** The second loop, from the snapshot's `i`-th notification on; it stops
      at the first exception. */
  function InsertPass(env: Env, snap: seq<Notification>, i: nat, st: Pass): (r: Pass)
    requires i <= |snap| && i <= |st.tracked| && !st.aborted
    ensures |st.events| <= |r.events| && r.events[..|st.events|] == st.events
    ensures AddsFrom(env, snap, r.events[|st.events|..])
    ensures !env.active ==> r.events == st.events
    decreases |snap| - i
  {
    if i == |snap| then st
    else
      var s := Step(env, snap[i], i, st);
      if s.aborted then
        AddsFromStep(env, snap, i, st.events, s.events, s.events);
        s
      else
        var r := InsertPass(env, snap, i + 1, s);
        AddsFromStep(env, snap, i, st.events, s.events, r.events);
        r
  }

  /** The messages of one turn followed by those of the later turns. */
  lemma AddsFromStep(env: Env, snap: seq<Notification>, i: nat, a: seq<Outbound>, b: seq<Outbound>,
                     c: seq<Outbound>)
    requires i < |snap|
    requires |a| <= |b| <= |a| + 1 && b[..|a|] == a
    requires |b| > |a| ==> Forwards(env, snap[i]) && b[|a|] == AddEvent(snap[i])
    requires |b| <= |c| && c[..|b|] == b && AddsFrom(env, snap, c[|b|..])
    ensures |a| <= |c| && c[..|a|] == a && AddsFrom(env, snap, c[|a|..])
  {
    forall e | e in c[|a|..] ensures exists n :: n in snap && Forwards(env, n) && e == AddEvent(n) {
      var k :| 0 <= k < |c[|a|..]| && c[|a|..][k] == e;
      if |a| + k < |b| {
        assert e == c[..|b|][|a| + k] == b[|a|] && snap[i] in snap;
      } else {
        assert e == c[|b|..][|a| + k - |b|];
        assert e in c[|b|..];
      }
    }
  }

  /** Every message is the Add message of a forwarded snapshot notification. */
  predicate AddsFrom(env: Env, snap: seq<Notification>, events: seq<Outbound>) {
    forall e :: e in events ==> exists n :: n in snap && Forwards(env, n) && e == AddEvent(n)
  }

  /** `UpdateNotifications`: `platform` is the listener's snapshot, oldest
      first. The Remove messages of the first loop come first, then the Add
      messages of the second. */
  function Reconcile(env: Env, platform: seq<Notification>, tracked: seq<Notification>, dir: Directory)
    : (r: Pass)
    ensures !env.active ==> r.events == []
  {
    var snap := Reverse(platform);
    var (kept, removals) := RemoveVanished(env, tracked, snap);
    InsertPass(env, snap, 0, Pass(kept, dir, removals, false))
  }

  // ---------------------------------------------------------------------
  // The ordering invariant

  /** The state of the tracked list `t` at the start of the second loop's
      turn `i`: its first `i` entries are the snapshot's first `i`, the
      rest are still in the snapshot's remainder, and no id is tracked
      twice. */
  predicate Placed(snap: seq<Notification>, i: nat, t: seq<Notification>) {
    && i <= |snap| && i <= |t|
    && (forall k :: 0 <= k < i ==> t[k].id == snap[k].id)
    && (forall m :: i <= m < |t| ==> HasId(snap[i..], t[m].id))
    && DistinctIds(t)
  }

  lemma HasIdTail(snap: seq<Notification>, i: nat, id: nat)
    requires i < |snap| && HasId(snap[i..], id) && id != snap[i].id
    ensures HasId(snap[i + 1..], id)
  {
    assert snap[i..][1..] == snap[i + 1..];
    assert Ids(snap[i..]) == [snap[i].id] + Ids(snap[i + 1..]);
  }

  /** Where each entry of a moved list comes from. */
  function MoveSource(k: nat, j: nat, i: nat): nat {
    if k < i || j < k then k else if k == i then j else k - 1
  }

  lemma MoveIndex<T>(s: seq<T>, j: nat, i: nat)
    requires i < j < |s|
    ensures Move(s, j, i).1 && |Move(s, j, i).0| == |s|
    ensures forall k :: 0 <= k < |s| ==> MoveSource(k, j, i) < |s| && Move(s, j, i).0[k] == s[MoveSource(k, j, i)]
  {
  }

  /** No id is held twice. */
  predicate DistinctIds(s: seq<Notification>) {
    forall a, b :: 0 <= a < b < |s| ==> s[a].id != s[b].id
  }

  lemma DistinctCons(x: Notification, s: seq<Notification>)
    requires DistinctIds(s) && !HasId(s, x.id)
    ensures DistinctIds([x] + s)
  {
    forall a, b | 0 <= a < b < |[x] + s| ensures ([x] + s)[a].id != ([x] + s)[b].id {
      if a == 0 {
        assert ([x] + s)[b] == s[b - 1] && Ids(s)[b - 1] == s[b - 1].id;
      }
    }
  }

  lemma {:induction false} RemoveVanishedDistinct(env: Env, tracked: seq<Notification>, snap: seq<Notification>)
    requires DistinctIds(tracked)
    ensures DistinctIds(RemoveVanished(env, tracked, snap).0)
    decreases |tracked|
  {
    if |tracked| > 0 {
      var rest := RemoveVanished(env, tracked[1..], snap).0;
      DistinctUncons(tracked);
      RemoveVanishedDistinct(env, tracked[1..], snap);
      DistinctCons(tracked[0], rest);
    }
  }

  lemma StepInPlace(env: Env, snap: seq<Notification>, i: nat, st: Pass)
    requires i < |snap| && !st.aborted && Placed(snap, i, st.tracked)
    requires IndexOfId(st.tracked, snap[i].id) == Some(i)
    ensures !Step(env, snap[i], i, st).aborted && Placed(snap, i + 1, Step(env, snap[i], i, st).tracked)
  {
    var t := st.tracked;
    forall m | i + 1 <= m < |t| ensures HasId(snap[i + 1..], t[m].id) {
      assert t[i].id != t[m].id;
      HasIdTail(snap, i, t[m].id);
    }
  }

  lemma MoveTail(snap: seq<Notification>, i: nat, t: seq<Notification>, j: nat)
    requires i < |snap| && Placed(snap, i, t) && i < j < |t| && t[j].id == snap[i].id
    ensures forall m :: i + 1 <= m < |t| ==> HasId(snap[i + 1..], Move(t, j, i).0[m].id)
  {
    MoveIndex(t, j, i);
    var moved := Move(t, j, i).0;
    forall m | i + 1 <= m < |t| ensures HasId(snap[i + 1..], moved[m].id) {
      var src := MoveSource(m, j, i);
      assert t[src].id != t[j].id;
      HasIdTail(snap, i, t[src].id);
    }
  }

  lemma MoveDistinct(t: seq<Notification>, j: nat, i: nat)
    requires DistinctIds(t) && i < j < |t|
    ensures DistinctIds(Move(t, j, i).0)
  {
    MoveIndex(t, j, i);
    var moved := Move(t, j, i).0;
    forall a, b | 0 <= a < b < |moved| ensures moved[a].id != moved[b].id {
      assert t[MoveSource(a, j, i)].id != t[MoveSource(b, j, i)].id;
    }
  }

  lemma StepMoved(env: Env, snap: seq<Notification>, i: nat, st: Pass, j: nat)
    requires i < |snap| && !st.aborted && Placed(snap, i, st.tracked)
    requires IndexOfId(st.tracked, snap[i].id) == Some(j) && i < j
    ensures !Step(env, snap[i], i, st).aborted && Placed(snap, i + 1, Step(env, snap[i], i, st).tracked)
  {
    MoveTail(snap, i, st.tracked, j);
    MoveDistinct(st.tracked, j, i);
  }

  lemma InsertTail(snap: seq<Notification>, i: nat, t: seq<Notification>)
    requires i < |snap| && Placed(snap, i, t) && !HasId(t, snap[i].id)
    ensures forall m :: i + 1 <= m < |t| + 1 ==> HasId(snap[i + 1..], InsertAt(t, i, snap[i])[m].id)
  {
    var u := InsertAt(t, i, snap[i]);
    forall m | i + 1 <= m < |u| ensures HasId(snap[i + 1..], u[m].id) {
      assert u[m] == t[m - 1] && Ids(t)[m - 1] == t[m - 1].id;
      HasIdTail(snap, i, t[m - 1].id);
    }
  }

  lemma InsertDistinct(t: seq<Notification>, i: nat, n: Notification)
    requires DistinctIds(t) && i <= |t| && !HasId(t, n.id)
    ensures DistinctIds(InsertAt(t, i, n))
  {
    var u := InsertAt(t, i, n);
    forall a, b | 0 <= a < b < |u| ensures u[a].id != u[b].id {
      if a == i {
        assert u[b] == t[b - 1] && Ids(t)[b - 1] == t[b - 1].id;
      } else if b == i {
        assert u[a] == t[a] && Ids(t)[a] == t[a].id;
      } else {
        var a' := if a < i then a else a - 1;
        var b' := if b < i then b else b - 1;
        assert u[a] == t[a'] && u[b] == t[b'];
      }
    }
  }

  lemma StepInserted(env: Env, snap: seq<Notification>, i: nat, st: Pass)
    requires i < |snap| && !st.aborted && Placed(snap, i, st.tracked)
    requires IndexOfId(st.tracked, snap[i].id).None?
    ensures var r := Step(env, snap[i], i, st);
            && (!r.aborted ==> Placed(snap, i + 1, r.tracked)) && (r.aborted ==> !Registrable(snap[i]))
            && DistinctIds(r.tracked)
  {
    InsertTail(snap, i, st.tracked);
    InsertDistinct(st.tracked, i, snap[i]);
  }

  lemma FoundNotBefore(snap: seq<Notification>, i: nat, t: seq<Notification>, j: nat)
    requires DistinctIds(snap) && i < |snap| && Placed(snap, i, t)
    requires j < |t| && t[j].id == snap[i].id
    ensures i <= j
  {
  }

  /** At the end of the second loop the tracked ids are the snapshot's. */
  lemma PlacedDone(snap: seq<Notification>, t: seq<Notification>)
    requires Placed(snap, |snap|, t)
    ensures Ids(t) == Ids(snap)
  {
    assert Ids(snap[|snap|..]) == [];
    assert |t| > |snap| ==> HasId(snap[|snap|..], t[|snap|].id);
    assert forall k :: 0 <= k < |t| ==> Ids(t)[k] == Ids(snap)[k];
  }

  /** From any placed state the rest of the pass either throws at the
      registration of an app that cannot be registered, or leaves the
      tracked ids exactly the snapshot's. */
  lemma {:induction false} InsertPassOrders(env: Env, snap: seq<Notification>, i: nat, st: Pass)
    requires DistinctIds(snap) && !st.aborted && Placed(snap, i, st.tracked)
    ensures var r := InsertPass(env, snap, i, st);
            && (!r.aborted ==> Ids(r.tracked) == Ids(snap))
            && (r.aborted ==> exists k :: i <= k < |snap| && !Registrable(snap[k]))
            && DistinctIds(r.tracked)
    decreases |snap| - i
  {
    var t := st.tracked;
    if i == |snap| {
      PlacedDone(snap, t);
    } else {
      var s := Step(env, snap[i], i, st);
      if IndexOfId(t, snap[i].id).Some? {
        var j := IndexOfId(t, snap[i].id).value;
        FoundNotBefore(snap, i, t, j);
        if j == i {
          StepInPlace(env, snap, i, st);
        } else {
          StepMoved(env, snap, i, st, j);
        }
      } else {
        StepInserted(env, snap, i, st);
      }
      if !s.aborted {
        InsertPassOrders(env, snap, i + 1, s);
      }
    }
  }

  lemma ReverseDistinct(platform: seq<Notification>)
    requires DistinctIds(platform)
    ensures DistinctIds(Reverse(platform))
  {
    var snap := Reverse(platform);
    forall a, b | 0 <= a < b < |snap| ensures snap[a].id != snap[b].id {
      assert platform[|platform| - 1 - a].id != platform[|platform| - 1 - b].id;
    }
  }

  /** The order invariant: with distinct ids, a pass that completes leaves
      the tracked list holding the snapshot's ids newest first, and a pass
      only throws at an app that cannot be registered. */
  lemma ReconcileOrders(env: Env, platform: seq<Notification>, tracked: seq<Notification>, dir: Directory)
    requires DistinctIds(platform) && DistinctIds(tracked)
    ensures var r := Reconcile(env, platform, tracked, dir);
            && (!r.aborted ==> Ids(r.tracked) == Ids(Reverse(platform)))
            && (r.aborted ==> exists n :: n in platform && !Registrable(n))
            && DistinctIds(r.tracked)
  {
    var snap := Reverse(platform);
    ReverseDistinct(platform);
    var (kept, removals) := RemoveVanished(env, tracked, snap);
    RemoveVanishedDistinct(env, tracked, snap);
    assert snap[0..] == snap;
    forall m | 0 <= m < |kept| ensures HasId(snap[0..], kept[m].id) {
      assert kept[m] in kept;
    }
    InsertPassOrders(env, snap, 0, Pass(kept, dir, removals, false));
    var r := Reconcile(env, platform, tracked, dir);
    if r.aborted {
      var k :| 0 <= k < |snap| && !Registrable(snap[k]);
      assert snap[k] == platform[|platform| - 1 - k];
    }
  }

  // ---------------------------------------------------------------------
  // A settled list is left alone

  lemma {:induction false} RemoveVanishedNone(env: Env, tracked: seq<Notification>, snap: seq<Notification>)
    requires forall k :: 0 <= k < |tracked| ==> HasId(snap, tracked[k].id)
    ensures RemoveVanished(env, tracked, snap) == (tracked, [])
    decreases |tracked|
  {
    if |tracked| > 0 {
      var tail := tracked[1..];
      assert forall k :: 0 <= k < |tail| ==> HasId(snap, tail[k].id) by {
        forall k | 0 <= k < |tail| ensures HasId(snap, tail[k].id) {
          assert tail[k] == tracked[k + 1];
        }
      }
      RemoveVanishedNone(env, tail, snap);
      assert HasId(snap, tracked[0].id);
      assert RemoveVanished(env, tracked, snap) == ([tracked[0]] + RemoveVanished(env, tail, snap).0, []);
      assert [tracked[0]] + tail == tracked;
    }
  }

  lemma {:induction false} InsertPassSettled(env: Env, snap: seq<Notification>, i: nat, st: Pass)
    requires DistinctIds(snap) && Ids(st.tracked) == Ids(snap) && i <= |snap| && !st.aborted
    ensures InsertPass(env, snap, i, st) == st
    decreases |snap| - i
  {
    if i < |snap| {
      TurnSettled(env, snap, i, st);
      InsertPassIdle(env, snap, i, st);
      InsertPassSettled(env, snap, i + 1, st);
    }
  }

  /** A turn that changes nothing hands the same state to the next one. */
  lemma InsertPassIdle(env: Env, snap: seq<Notification>, i: nat, st: Pass)
    requires i < |snap| && i + 1 <= |st.tracked| && !st.aborted && Step(env, snap[i], i, st) == st
    ensures InsertPass(env, snap, i, st) == InsertPass(env, snap, i + 1, st)
  {
  }

  /** With the ids already in snapshot order, a turn changes nothing. */
  lemma TurnSettled(env: Env, snap: seq<Notification>, i: nat, st: Pass)
    requires DistinctIds(snap) && Ids(st.tracked) == Ids(snap) && i < |snap| && !st.aborted
    ensures Step(env, snap[i], i, st) == st
  {
    FirstHolder(st.tracked, snap, i);
    StepSettled(env, snap[i], i, st);
  }

  /** With the ids in snapshot order, the notification at `i` is the first
      holder of its id. */
  lemma FirstHolder(t: seq<Notification>, snap: seq<Notification>, i: nat)
    requires DistinctIds(snap) && Ids(t) == Ids(snap) && i < |snap|
    ensures i < |t| && t[i].id == snap[i].id
    ensures forall k :: 0 <= k < i ==> t[k].id != snap[i].id
  {
    assert |t| == |Ids(t)|;
    assert forall k :: 0 <= k < |snap| ==> t[k].id == Ids(t)[k] == snap[k].id;
  }

  /** A notification already at its place is a step that does nothing. */
  lemma StepSettled(env: Env, n: Notification, i: nat, st: Pass)
    requires i < |st.tracked| && !st.aborted && st.tracked[i].id == n.id
    requires forall k :: 0 <= k < i ==> st.tracked[k].id != n.id
    ensures Step(env, n, i, st) == st
  {
    assert Ids(st.tracked)[i] == n.id;
    var j := IndexOfId(st.tracked, n.id);
    assert j.Some? && j.value == i;
  }

  /** Re-running on an unchanged snapshot changes nothing and sends
      nothing: a completed pass reaches a fixed point. */
  lemma ReconcileIdempotent(env: Env, platform: seq<Notification>, tracked: seq<Notification>, dir: Directory)
    requires DistinctIds(platform) && DistinctIds(tracked)
    requires !Reconcile(env, platform, tracked, dir).aborted
    ensures var r := Reconcile(env, platform, tracked, dir);
            Reconcile(env, platform, r.tracked, r.dir) == Pass(r.tracked, r.dir, [], false)
  {
    var r := Reconcile(env, platform, tracked, dir);
    ReconcileOrders(env, platform, tracked, dir);
    ReverseDistinct(platform);
    var snap := Reverse(platform);
    forall k | 0 <= k < |r.tracked| ensures HasId(snap, r.tracked[k].id) {
      assert Ids(snap)[k] == r.tracked[k].id;
    }
    RemoveVanishedNone(env, r.tracked, snap);
    InsertPassSettled(env, snap, 0, Pass(r.tracked, r.dir, [], false));
  }
}

=== FILE: remote.dfy ===
/** The phone's notifications as the background task shows them on the host
    (RfcommServerTask.cs): the list `AndroidNotifications`, each entry
    keyed by the phone's notification key and numbered from the counter
    `_id`, whose decimal form tags the toast that shows it. */
module RemoteTable {
  import opened Common
  import opened Text
  import opened Kinds
  import opened Protocol

  /** One shown phone notification; `id` numbers its toast. */
  datatype AndroidNotification = AndroidNotification(id: nat, appName: string, content: string, key: string,
                                                     packageName: string, title: string)

  /** The list and the next number to hand out. */
  datatype Table = Table(entries: seq<AndroidNotification>, nextId: nat)

  predicate UniqueKeys(s: seq<AndroidNotification>) {
    forall a, b :: 0 <= a < b < |s| ==> s[a].key != s[b].key
  }

  predicate UniqueIds(s: seq<AndroidNotification>) {
    forall a, b :: 0 <= a < b < |s| ==> s[a].id != s[b].id
  }

  /** What the task keeps true of its table: one entry per key, one per
      number, and every number already handed out. */
  predicate Valid(t: Table) {
    && UniqueKeys(t.entries) && UniqueIds(t.entries)
    && forall a :: 0 <= a < |t.entries| ==> t.entries[a].id < t.nextId
  }

  /** `List.Find(n => n.Key == key)`: the first entry with the key. */
  function FindKey(s: seq<AndroidNotification>, key: string): (r: Option<nat>)
    ensures r.Some? ==> r.value < |s| && s[r.value].key == key
    ensures r.Some? ==> forall k :: 0 <= k < r.value ==> s[k].key != key
    ensures r.None? <==> forall k :: 0 <= k < |s| ==> s[k].key != key
    decreases |s|
  {
    if |s| == 0 then None
    else if s[0].key == key then Some(0)
    else
      match FindKey(s[1..], key)
      case None => None
      case Some(j) => Some(j + 1)
  }

  /** `List.Find(n => n.Id == id)`. */
  function FindId(s: seq<AndroidNotification>, id: nat): (r: Option<nat>)
    ensures r.Some? ==> r.value < |s| && s[r.value].id == id
    ensures r.Some? ==> forall k :: 0 <= k < r.value ==> s[k].id != id
    ensures r.None? <==> forall k :: 0 <= k < |s| ==> s[k].id != id
    decreases |s|
  {
    if |s| == 0 then None
    else if s[0].id == id then Some(0)
    else
      match FindId(s[1..], id)
      case None => None
      case Some(j) => Some(j + 1)
  }

  /** `List.Remove(item)` for an item found at `k`. */
  function RemoveAt<T>(s: seq<T>, k: nat): (r: seq<T>)
    requires k < |s|
    ensures |r| == |s| - 1
    ensures forall a :: 0 <= a < |r| ==> r[a] == (if a < k then s[a] else s[a + 1])
  {
    s[..k] + s[k + 1..]
  }

  /** The toast tag of a numbered entry: `Id.ToString()`. */
  function Tag(id: nat): string {
    NatToDecimal(id)
  }

  // ---------------------------------------------------------------------
  // The toast (ShowNotification, 156-241)

  datatype Button =
    | OpenOnDevice(argument: string)            // activates the phone app
    | Reply(argument: string, textBoxId: string) // sends the text box's content
    | DismissCall                               // the system dismiss button

  /** The toast's buttons and inputs, as data: the header (package name,
      app name), the two text lines, the attribution, and the actions. */
  datatype Toast = Toast(tag: string, headerId: string, headerTitle: string, title: string, content: string,
                         attribution: string, inputs: seq<string>, buttons: seq<Button>, incomingCall: bool)

  const ReplyBox: string := "tbReply"

  /** The action set: "Open on Device" when the phone sent an intent; a
      reply box and "Reply" for a phone number key (leading `+`); for a call
      key (`+`... `call`) also "Dismiss Call" and the incoming-call
      scenario. */
  function Actions(key: string, intent: Option<string>): (r: (seq<string>, seq<Button>, bool))
    ensures OpenOnDevice(key) in r.1 <==> intent.Some? && intent.value != ""
    ensures Reply(key, ReplyBox) in r.1 <==> StartsWith(key, "+")
    ensures r.0 == (if StartsWith(key, "+") then [ReplyBox] else [])
    ensures DismissCall in r.1 <==> r.2
    ensures r.2 <==> StartsWith(key, "+") && EndsWith(key, "call")
    ensures forall b :: b in r.1 ==> b == OpenOnDevice(key) || b == Reply(key, ReplyBox) || b == DismissCall
    ensures |r.1| <= 3
  {
    var open := if intent.Some? && intent.value != "" then [OpenOnDevice(key)] else [];
    if StartsWith(key, "+") then
      var call := EndsWith(key, "call");
      ([ReplyBox], open + [Reply(key, ReplyBox)] + (if call then [DismissCall] else []), call)
    else ([], open, false)
  }

  /** `ShowNotification`: a key already shown gets its content replaced (and
      nothing else); a new key gets the next number. Either way the toast
      tagged with the entry's number shows the given texts. */
  function Show(t: Table, appName: string, packageName: string, title: string, content: string, key: string,
                intent: Option<string>): (r: (Table, Toast))
    ensures FindKey(t.entries, key).Some? ==>
              var k := FindKey(t.entries, key).value;
              && r.0 == Table(t.entries[k := t.entries[k].(content := content)], t.nextId)
              && r.1.tag == Tag(t.entries[k].id)
    ensures FindKey(t.entries, key).None? ==>
              && r.0 == Table(t.entries + [AndroidNotification(t.nextId, appName, content, key, packageName, title)],
                              t.nextId + 1)
              && r.1.tag == Tag(t.nextId)
    ensures r.1.title == title && r.1.content == content && r.1.attribution == appName
    ensures r.1.headerId == packageName && r.1.headerTitle == appName
    ensures (r.1.inputs, r.1.buttons, r.1.incomingCall) == Actions(key, intent)
  {
    var (entries, nextId, id) :=
      match FindKey(t.entries, key)
      case Some(k) => (t.entries[k := t.entries[k].(content := content)], t.nextId, t.entries[k].id)
      case None => (t.entries + [AndroidNotification(t.nextId, appName, content, key, packageName, title)],
                    t.nextId + 1, t.nextId);
    var (inputs, buttons, call) := Actions(key, intent);
    (Table(entries, nextId), Toast(Tag(id), packageName, appName, title, content, appName, inputs, buttons, call))
  }

  /** Showing keeps the table valid. */
  lemma ShowKeepsValid(t: Table, appName: string, packageName: string, title: string, content: string,
                       key: string, intent: Option<string>)
    requires Valid(t)
    ensures Valid(Show(t, appName, packageName, title, content, key, intent).0)
  {
  }

  /** Two lists whose entries match `key` at the same places give the same
      `Find` result. */
  lemma FindKeySame(s: seq<AndroidNotification>, u: seq<AndroidNotification>, key: string)
    requires |s| <= |u|
    requires forall a :: 0 <= a < |s| ==> (s[a].key == key <==> u[a].key == key)
    requires forall a :: |s| <= a < |u| ==> u[a].key != key
    ensures FindKey(u, key) == FindKey(s, key)
  {
  }

  /** After showing, the key's one entry carries the new content, and
      looking up any other key finds the same entry as before. */
  lemma ShowThenFind(t: Table, appName: string, packageName: string, title: string, content: string,
                     key: string, intent: Option<string>, other: string)
    requires other != key
    ensures var u := Show(t, appName, packageName, title, content, key, intent).0;
            && FindKey(u.entries, key).Some?
            && u.entries[FindKey(u.entries, key).value].content == content
            && FindKey(u.entries, other) == FindKey(t.entries, other)
            && (FindKey(t.entries, other).Some? ==>
                  u.entries[FindKey(t.entries, other).value] == t.entries[FindKey(t.entries, other).value])
  {
    if FindKey(t.entries, key).None? {
      FindAfterAppend(t.entries, AndroidNotification(t.nextId, appName, content, key, packageName, title), other);
    } else {
      FindAfterUpdate(t.entries, FindKey(t.entries, key).value, content, other);
    }
  }

  /** Appending an entry with a new key makes it the key's entry and moves
      no other key's entry. */
  lemma FindAfterAppend(s: seq<AndroidNotification>, x: AndroidNotification, other: string)
    requires FindKey(s, x.key).None? && other != x.key
    ensures FindKey(s + [x], x.key) == Some(|s|)
    ensures FindKey(s + [x], other) == FindKey(s, other)
    ensures FindKey(s, other).Some? ==> (s + [x])[FindKey(s, other).value] == s[FindKey(s, other).value]
  {
    var u := s + [x];
    assert u[|s|] == x;
    assert forall a :: 0 <= a < |s| ==> u[a] == s[a];
    FindKeySame(s, u, other);
  }

  /** Replacing the content of the key's entry leaves every lookup where it
      was. */
  lemma FindAfterUpdate(s: seq<AndroidNotification>, k: nat, content: string, other: string)
    requires k < |s| && FindKey(s, s[k].key) == Some(k) && other != s[k].key
    ensures FindKey(s[k := s[k].(content := content)], s[k].key) == Some(k)
    ensures FindKey(s[k := s[k].(content := content)], other) == FindKey(s, other)
    ensures FindKey(s, other).Some? ==>
              s[k := s[k].(content := content)][FindKey(s, other).value] == s[FindKey(s, other).value]
  {
    var u := s[k := s[k].(content := content)];
    FindKeySame(s, u, s[k].key);
    FindKeySame(s, u, other);
  }

  // ---------------------------------------------------------------------
  // Withdrawal by key (the inbound Remove of a phone-only key, 321-328)

  /** The first entry with the key is dropped; its toast tag is returned so
      the toast can be withdrawn. An unknown key changes nothing. */
  function RemoveKey(t: Table, key: string): (r: (Table, Option<string>))
    ensures r.0.nextId == t.nextId
    ensures FindKey(t.entries, key).None? <==> r.1.None?
    ensures r.1.None? ==> r.0 == t
    ensures r.1.Some? ==> var k := FindKey(t.entries, key).value;
                          r.0.entries == RemoveAt(t.entries, k) && r.1.value == Tag(t.entries[k].id)
  {
    match FindKey(t.entries, key)
    case None => (t, None)
    case Some(k) => (t.(entries := RemoveAt(t.entries, k)), Some(Tag(t.entries[k].id)))
  }

  /** In a valid table the key is gone afterwards, every other entry stays,
      and the table stays valid. */
  lemma RemoveKeyFrames(t: Table, key: string)
    requires Valid(t)
    ensures var u := RemoveKey(t, key).0;
            && Valid(u)
            && FindKey(u.entries, key).None?
            && forall x :: x in u.entries <==> x in t.entries && x.key != key
  {
    if FindKey(t.entries, key).Some? {
      var k := FindKey(t.entries, key).value;
      var u := RemoveAt(t.entries, k);
      RemoveAtUnique(t.entries, k);
      RemoveAtMembers(t.entries, k);
      KeyIsId(t, k);
      assert forall a :: 0 <= a < |u| ==> u[a] in u;
    }
  }

  /** In a valid table an entry's key and its number pick out the same
      entry. */
  lemma KeyIsId(t: Table, k: nat)
    requires Valid(t) && k < |t.entries|
    ensures forall x :: x in t.entries ==> (x.key == t.entries[k].key <==> x.id == t.entries[k].id)
  {
    forall x | x in t.entries ensures x.key == t.entries[k].key <==> x.id == t.entries[k].id {
      var a :| 0 <= a < |t.entries| && t.entries[a] == x;
      assert x.key == t.entries[k].key <==> a == k;
    }
  }

  // ---------------------------------------------------------------------
  // History reconciliation (DismissAndroidNotification, 617-634)

  /** The message telling the phone a notification was dismissed on the
      host. */
  function RemoveMessage(key: string): (e: Outbound)
    ensures e.kind == Remove && e.id == key && e.title == "" && e.body == "" && e.appName == ""
  {
    Outbound(Remove, key, "", "", "")
  }

  /** The entry's toast is still in the host's notification history. */
  predicate Shown(history: set<string>, x: AndroidNotification) {
    Tag(x.id) in history
  }

  /** The numbers `i` up to `n` whose toast is gone from the history: the
      entry holding the number is dropped, after a Remove message with its
      key when forwarding is on. */
  function DismissFrom(s: seq<AndroidNotification>, history: set<string>, active: bool, i: nat, n: nat)
    : (r: (seq<AndroidNotification>, seq<Outbound>))
    ensures UniqueIds(s) ==> forall x :: x in r.0 <==> x in s && (Shown(history, x) || x.id < i || n <= x.id)
    ensures UniqueIds(s) ==> UniqueIds(r.0)
    ensures !active ==> r.1 == []
    ensures |r.0| <= |s| && (active ==> |r.1| == |s| - |r.0|)
    ensures UniqueIds(s) ==> forall e :: e in r.1 ==>
              exists x :: x in s && !Shown(history, x) && i <= x.id < n && e == RemoveMessage(x.key)
    decreases n - i
  {
    if n <= i then (s, [])
    else if Tag(i) in history then DismissFrom(s, history, active, i + 1, n)
    else
      match FindId(s, i)
      case None => DismissFrom(s, history, active, i + 1, n)
      case Some(k) =>
        var s' := RemoveAt(s, k);
        RemoveAtKeeps(s, k);
        var rest := DismissFrom(s', history, active, i + 1, n);
        (rest.0, (if active then [RemoveMessage(s[k].key)] else []) + rest.1)
  }

  /** Dropping one entry: the rest stay, uniqueness survives. */
  lemma RemoveAtKeeps(s: seq<AndroidNotification>, k: nat)
    requires k < |s|
    ensures UniqueIds(s) ==> UniqueIds(RemoveAt(s, k))
    ensures UniqueIds(s) ==> forall x :: x in RemoveAt(s, k) <==> x in s && x.id != s[k].id
  {
    if UniqueIds(s) {
      RemoveAtUnique(s, k);
      RemoveAtMembers(s, k);
    }
  }

  /** Dropping an entry keeps keys and numbers unique. */
  lemma RemoveAtUnique(s: seq<AndroidNotification>, k: nat)
    requires k < |s|
    ensures UniqueIds(s) ==> UniqueIds(RemoveAt(s, k))
    ensures UniqueKeys(s) ==> UniqueKeys(RemoveAt(s, k))
  {
    var r := RemoveAt(s, k);
    forall a, b | 0 <= a < b < |r| ensures r[a] == s[if a < k then a else a + 1] && r[b] == s[if b < k then b else b + 1] {
    }
  }

  /** With unique numbers, dropping entry `k` drops exactly the entries
      with its number. */
  lemma RemoveAtMembers(s: seq<AndroidNotification>, k: nat)
    requires k < |s| && UniqueIds(s)
    ensures forall x :: x in RemoveAt(s, k) <==> x in s && x.id != s[k].id
  {
    var r := RemoveAt(s, k);
    forall x | x in r ensures x in s && x.id != s[k].id {
      var a :| 0 <= a < |r| && r[a] == x;
      assert s[if a < k then a else a + 1] == x;
    }
    forall x | x in s && x.id != s[k].id ensures x in r {
      var a :| 0 <= a < |s| && s[a] == x;
      assert r[if a < k then a else a - 1] == x;
    }
  }

  /** `DismissAndroidNotification` over the whole table. */
  function Dismiss(t: Table, history: set<string>, active: bool): (r: (Table, seq<Outbound>))
    ensures r.0.nextId == t.nextId
  {
    var (entries, events) := DismissFrom(t.entries, history, active, 0, t.nextId);
    (Table(entries, t.nextId), events)
  }

  /** In a valid table, exactly the entries whose toast is still shown
      survive, the table stays valid, and the phone hears of every other
      one when forwarding is on and of nothing when it is off. */
  lemma DismissKeepsShown(t: Table, history: set<string>, active: bool)
    requires Valid(t)
    ensures var r := Dismiss(t, history, active);
            && Valid(r.0)
            && (forall x :: x in r.0.entries <==> x in t.entries && Shown(history, x))
            && (forall x :: x in t.entries && !Shown(history, x) && active ==> RemoveMessage(x.key) in r.1)
            && (forall e :: e in r.1 ==> exists x :: x in t.entries && !Shown(history, x) && e == RemoveMessage(x.key))
            && (active ==> |r.1| == |t.entries| - |r.0.entries|)
            && (!active ==> r.1 == [])
  {
    var r := Dismiss(t, history, active);
    forall x | x in t.entries ensures x.id < t.nextId {
    }
    SubsetKeepsKeys(t.entries, r.0.entries);
    DismissFromTells(t.entries, history, active, 0, t.nextId);
  }

  /** A sublist of a list with one entry per key, holding one entry per
      number, holds one entry per key too. */
  lemma SubsetKeepsKeys(s: seq<AndroidNotification>, r: seq<AndroidNotification>)
    requires UniqueKeys(s) && UniqueIds(r) && forall x :: x in r ==> x in s
    ensures UniqueKeys(r)
  {
    forall a, b | 0 <= a < b < |r| ensures r[a].key != r[b].key {
      assert r[a] in s && r[b] in s;
      var c :| 0 <= c < |s| && s[c] == r[a];
      var d :| 0 <= d < |s| && s[d] == r[b];
      assert c != d ==> s[c].key != s[d].key;
    }
  }

  /** Every entry dropped is told to the phone when forwarding is on. */
  lemma {:induction false} DismissFromTells(s: seq<AndroidNotification>, history: set<string>, active: bool,
                                            i: nat, n: nat)
    requires UniqueIds(s)
    ensures forall x :: x in s && !Shown(history, x) && i <= x.id < n && active ==>
              RemoveMessage(x.key) in DismissFrom(s, history, active, i, n).1
    decreases n - i
  {
    if i < n {
      if Tag(i) in history {
        DismissFromTells(s, history, active, i + 1, n);
        forall x | x in s && !Shown(history, x) && i <= x.id < n
          ensures x.id != i {
        }
      } else {
        match FindId(s, i)
        case None =>
          DismissFromTells(s, history, active, i + 1, n);
        case Some(k) =>
          RemoveAtKeeps(s, k);
          DismissFromTells(RemoveAt(s, k), history, active, i + 1, n);
      }
    }
  }
}

=== FILE: session.dfy ===
/** One connection of the background task (RfcommServerTask.cs): the
    tracked host notifications, the app directory, the phone's notifications
    and the queue of texts for the phone, threaded through the three things
    that drive the task: a message from the phone, a change in the host's
    notifications, a change in the host's toast history, and a toast button
    whose background task queues a message through the same queue. */
module Session {
  import opened Common
  import opened Text
  import opened Kinds
  import opened Protocol
  import opened AppDirectory
  import opened Reconciler
  import opened RemoteTable
  import opened Inbound
  import AppRecords
  import ToastAction

  datatype State = State(tracked: seq<Notification>, dir: Directory, table: Table, outbox: seq<string>)

  datatype Input =
    /** A framed message from the phone, and the host's notifications as
        the listener reports them after any dismissal the message asks for. */
    | Received(message: string, snapshot: seq<Notification>)
    /** The listener reports a change; `UpdateNotifications` runs. */
    | HostChanged(snapshot: seq<Notification>)
    /** The toast history changed; `DismissAndroidNotification` runs. */
    | HistoryChanged(history: set<string>)
    /** A toast button was pressed; its background task runs and may call
        `SendSms`, `DismissCall` or `OpenApp`, which queue without looking
        at whether forwarding is on. Its exceptions stay in that task. */
    | ToastActivated(trigger: ToastAction.Trigger)

  /** The text a toast button queues, if its task routes a call. */
  function ToastTextOf(codes: TypeCodes, input: Input): seq<string> {
    if input.ToastActivated? && ToastAction.Run(input.trigger).Routed?
    then [Wire(codes, ToastAction.Message(ToastAction.Run(input.trigger).route))]
    else []
  }

  /** The texts the toast buttons among the inputs queue, in order. */
  function ToastTexts(codes: TypeCodes, inputs: seq<Input>): seq<string>
    decreases |inputs|
  {
    if |inputs| == 0 then [] else ToastTextOf(codes, inputs[0]) + ToastTexts(codes, inputs[1..])
  }

  /** `SendMessages.Enqueue` for each message, in order. */
  function Enqueue(codes: TypeCodes, outbox: seq<string>, events: seq<Outbound>): (r: seq<string>)
    ensures |r| == |outbox| + |events| && r[..|outbox|] == outbox
    ensures forall k :: 0 <= k < |events| ==> r[|outbox| + k] == Wire(codes, events[k])
    decreases |events|
  {
    if |events| == 0 then outbox else Enqueue(codes, outbox + [Wire(codes, events[0])], events[1..])
  }

  /** A reconcile pass; an exception inside it is swallowed, keeping what
      was done before it. */
  function Update(codes: TypeCodes, env: Env, s: State, snapshot: seq<Notification>): (r: State)
    ensures r.table == s.table
    ensures |s.outbox| <= |r.outbox| && r.outbox[..|s.outbox|] == s.outbox
    ensures !env.active ==> r.outbox == s.outbox
  {
    var p := Reconcile(env, snapshot, s.tracked, s.dir);
    State(p.tracked, p.dir, s.table, Enqueue(codes, s.outbox, p.events))
  }

  /** One input; `None` when handling a phone message throws, which ends the
      receive loop (the outer catch completes the task). */
  function Handle(codes: TypeCodes, env: Env, s: State, input: Input): (r: Option<State>)
    ensures r.None? <==> input.Received? && (ParseInbound(input.message).None? ||
                                             Dispatch(codes, s.table, ParseInbound(input.message).value).None?)
    ensures r.Some? ==> |s.outbox| <= |r.value.outbox| && r.value.outbox[..|s.outbox|] == s.outbox
    ensures r.Some? && !env.active && !input.ToastActivated? ==> r.value.outbox == s.outbox
    ensures input.ToastActivated? ==>
              r.Some? && r.value.tracked == s.tracked && r.value.dir == s.dir && r.value.table == s.table
    ensures input.ToastActivated? && ToastAction.Run(input.trigger).Routed? ==>
              r.value.outbox == s.outbox + [Wire(codes, ToastAction.Message(ToastAction.Run(input.trigger).route))]
    ensures input.ToastActivated? && !ToastAction.Run(input.trigger).Routed? ==> r.value.outbox == s.outbox
  {
    match input
    case Received(message, snapshot) =>
      (match ParseInbound(message)
       case None => None
       case Some(m) =>
         match Dispatch(codes, s.table, m)
         case None => None
         case Some((table, effect)) =>
           var s' := s.(table := table);
           if effect.DismissHost? then Some(Update(codes, env, s', snapshot)) else Some(s'))
    case HostChanged(snapshot) => Some(Update(codes, env, s, snapshot))
    case HistoryChanged(history) =>
      var (table, events) := Dismiss(s.table, history, env.active);
      Some(s.(table := table, outbox := Enqueue(codes, s.outbox, events)))
    case ToastActivated(trigger) =>
      match ToastAction.Run(trigger)
      case Routed(route) => Some(s.(outbox := s.outbox + [Wire(codes, ToastAction.Message(route))]))
      case _ => Some(s)
  }

  /** Every input handled in turn; `None` as soon as one ends the loop. */
  function HandleAll(codes: TypeCodes, env: Env, s: State, inputs: seq<Input>): Option<State>
    decreases |inputs|
  {
    if |inputs| == 0 then Some(s)
    else
      match Handle(codes, env, s, inputs[0])
      case None => None
      case Some(s') => HandleAll(codes, env, s', inputs[1..])
  }

  /** The inputs in order until one ends the receive loop; also how many
      were handled. The state is that of handling the handled inputs in
      turn, and the input it stops at is one that ends the loop. */
  function Run(codes: TypeCodes, env: Env, s: State, inputs: seq<Input>): (r: (State, nat))
    ensures r.1 <= |inputs|
    ensures HandleAll(codes, env, s, inputs[..r.1]) == Some(r.0)
    ensures r.1 < |inputs| ==> Handle(codes, env, r.0, inputs[r.1]).None?
    ensures r.1 < |inputs| ==> inputs[r.1].Received?
    ensures |s.outbox| <= |r.0.outbox| && r.0.outbox[..|s.outbox|] == s.outbox
    ensures !env.active && ToastTexts(codes, inputs) == [] ==> r.0.outbox == s.outbox
    decreases |inputs|
  {
    if |inputs| == 0 then (s, 0)
    else
      match Handle(codes, env, s, inputs[0])
      case None => (s, 0)
      case Some(s') =>
        var rest := Run(codes, env, s', inputs[1..]);
        assert inputs[..rest.1 + 1][1..] == inputs[1..][..rest.1];
        (rest.0, rest.1 + 1)
  }

  /** While forwarding is off, a session queues exactly the texts of the
      toast buttons among the inputs it handles, in order. */
  lemma RunQueuesOnlyToasts(codes: TypeCodes, env: Env, s: State, inputs: seq<Input>)
    requires !env.active
    ensures var r := Run(codes, env, s, inputs);
            r.0.outbox == s.outbox + ToastTexts(codes, inputs[..r.1])
  {
    var r := Run(codes, env, s, inputs);
    HandleAllQueuesOnlyToasts(codes, env, s, inputs[..r.1]);
  }

  lemma {:induction false} HandleAllQueuesOnlyToasts(codes: TypeCodes, env: Env, s: State, inputs: seq<Input>)
    requires !env.active && HandleAll(codes, env, s, inputs).Some?
    ensures HandleAll(codes, env, s, inputs).value.outbox == s.outbox + ToastTexts(codes, inputs)
    decreases |inputs|
  {
    if |inputs| > 0 {
      var s' := Handle(codes, env, s, inputs[0]).value;
      assert HandleAll(codes, env, s, inputs) == HandleAll(codes, env, s', inputs[1..]);
      HandleQueuesToast(codes, env, s, inputs[0]);
      HandleAllQueuesOnlyToasts(codes, env, s', inputs[1..]);
      var head, tail := ToastTextOf(codes, inputs[0]), ToastTexts(codes, inputs[1..]);
      assert ToastTexts(codes, inputs) == head + tail;
      assert s'.outbox == s.outbox + head;
      AppRecords.SeqAssoc(s.outbox, head, tail);
    }
  }

  /** With forwarding off, one input queues just the text of a toast
      button, if it is one whose task routes a call. */
  lemma HandleQueuesToast(codes: TypeCodes, env: Env, s: State, input: Input)
    requires !env.active
    ensures Handle(codes, env, s, input).Some? ==>
              Handle(codes, env, s, input).value.outbox == s.outbox + ToastTextOf(codes, input)
  {
  }

  /** A message whose first length is not a number ends the loop there:
      nothing after it is handled. */
  lemma RunStopsAtBadLength(codes: TypeCodes, env: Env, s: State, message: string, snapshot: seq<Notification>,
                            later: seq<Input>)
    requires ParseInt32(Split(message, ';')[0]).None?
    ensures Run(codes, env, s, [Received(message, snapshot)] + later) == (s, 0)
  {
    BadLengthRejected(message, 7);
  }

  /** One input keeps the phone's table valid. */
  lemma HandleKeepsValid(codes: TypeCodes, env: Env, s: State, input: Input)
    requires Valid(s.table)
    ensures Handle(codes, env, s, input).Some? ==> Valid(Handle(codes, env, s, input).value.table)
  {
    match input
    case Received(message, _) =>
      if Handle(codes, env, s, input).Some? {
        DispatchKeepsValid(codes, s.table, ParseInbound(message).value);
      }
    case HostChanged(_) =>
    case HistoryChanged(history) =>
      DismissKeepsShown(s.table, history, env.active);
    case ToastActivated(_) =>
  }

  /** Every state the session goes through keeps the phone's table valid. */
  lemma {:induction false} RunKeepsValid(codes: TypeCodes, env: Env, s: State, inputs: seq<Input>)
    requires Valid(s.table)
    ensures Valid(Run(codes, env, s, inputs).0.table)
    decreases |inputs|
  {
    if |inputs| > 0 && Handle(codes, env, s, inputs[0]).Some? {
      var s' := Handle(codes, env, s, inputs[0]).value;
      HandleKeepsValid(codes, env, s, inputs[0]);
      RunKeepsValid(codes, env, s', inputs[1..]);
    }
  }

  /** A notification the phone frames as an Add of an app notification is
      shown with the texts it sent. */
  lemma ReceivedAddShown(codes: TypeCodes, env: Env, s: State, m: InboundMessage, extra: string,
                         snapshot: seq<Notification>)
    requires codes.Valid() && InboundFits(m)
    requires m.action == IntToDecimal(codes.add) && !StartsWith(m.key, "+")
    ensures var r := Handle(codes, env, s, Received(EncodeLengthTable(InboundFields(m)) + extra, snapshot));
            && r.Some?
            && r.value.table == Show(s.table, m.appName, m.packageName, m.title, m.text, m.key,
                                     Some(m.contentIntent)).0
            && r.value.tracked == s.tracked && r.value.outbox == s.outbox
  {
    ParseInboundRoundTrip(m, extra);
    ParseIntToDecimal(codes.add);
    assert codes.TypeOf(codes.add) == Some(Add);
    DispatchAppKey(codes, s.table, m);
  }
}

=== FILE: text.dfy ===
/** String operations of the .NET base library, as used by the bridge.
    A `string` is a sequence of Unicode code points, so every length here
    counts code points where .NET's `String.Length` counts UTF-16 code units
    (the two agree on text within the Basic Multilingual Plane); all
    comparisons here are ordinal. */
module Text {
  import opened Common

  // ---------------------------------------------------------------------
  // Prefixes, suffixes and searching

  predicate StartsWith(s: string, p: string) {
    |p| <= |s| && s[..|p|] == p
  }

  predicate EndsWith(s: string, p: string) {
    |p| <= |s| && s[|s| - |p|..] == p
  }

  predicate OccursAt(s: string, p: string, i: nat) {
    i + |p| <= |s| && s[i..i + |p|] == p
  }

  /** `String.IndexOf(p, StringComparison.Ordinal)` searching from `from`:
      the first position at or after `from` where `p` occurs. */
  function IndexOfFrom(s: string, p: string, from: nat): (r: Option<nat>)
    ensures r.Some? ==> from <= r.value && OccursAt(s, p, r.value)
    ensures r.Some? ==> forall k :: from <= k < r.value ==> !OccursAt(s, p, k)
    ensures r.None? ==> forall k :: from <= k ==> !OccursAt(s, p, k)
    decreases |s| - from
  {
    if from + |p| > |s| then None
    else if OccursAt(s, p, from) then Some(from)
    else IndexOfFrom(s, p, from + 1)
  }

  function IndexOf(s: string, p: string): (r: Option<nat>)
    ensures r.Some? ==> OccursAt(s, p, r.value)
    ensures r.Some? ==> forall k :: 0 <= k < r.value ==> !OccursAt(s, p, k)
    ensures r.None? ==> forall k :: 0 <= k ==> !OccursAt(s, p, k)
  {
    IndexOfFrom(s, p, 0)
  }

  // ---------------------------------------------------------------------
  // Split and Join on one separator character

  /** `String.Split(sep)`: every piece between separators, empty pieces
      included, so there is always one more piece than separators. */
  function Split(s: string, sep: char): (parts: seq<string>)
    ensures |parts| >= 1
    ensures forall k :: 0 <= k < |parts| ==> sep !in parts[k]
    decreases |s|
  {
    if |s| == 0 then [""]
    else
      var rest := Split(s[1..], sep);
      if s[0] == sep then [""] + rest
      else [[s[0]] + rest[0]] + rest[1..]
  }

  /** `String.Join(sep, parts)`. */
  function Join(parts: seq<string>, sep: char): string
    decreases |parts|
  {
    if |parts| == 0 then ""
    else if |parts| == 1 then parts[0]
    else parts[0] + [sep] + Join(parts[1..], sep)
  }

  /** Joining the pieces of a split gives back the original string. */
  lemma {:induction false} JoinSplit(s: string, sep: char)
    ensures Join(Split(s, sep), sep) == s
    decreases |s|
  {
    if |s| > 0 {
      JoinSplit(s[1..], sep);
      var rest := Split(s[1..], sep);
      if s[0] == sep {
        assert Split(s, sep) == [""] + rest;
        assert s == [s[0]] + s[1..];
      } else {
        var parts := [[s[0]] + rest[0]] + rest[1..];
        assert Split(s, sep) == parts;
        if |rest| == 1 {
          assert s == [s[0]] + s[1..];
        } else {
          assert parts[1..] == rest[1..];
          assert Join(rest, sep) == rest[0] + [sep] + Join(rest[1..], sep);
          assert s == [s[0]] + s[1..];
        }
      }
    }
  }

  /** A string free of the separator is a single piece. */
  lemma {:induction false} SplitNoSep(s: string, sep: char)
    requires sep !in s
    ensures Split(s, sep) == [s]
    decreases |s|
  {
    if |s| > 0 {
      assert sep !in s[1..];
      SplitNoSep(s[1..], sep);
      assert s == [s[0]] + s[1..];
    }
  }

  /** A separator-free head followed by one separator splits off as one piece. */
  lemma {:induction false} SplitCons(a: string, sep: char, b: string)
    requires sep !in a
    ensures Split(a + [sep] + b, sep) == [a] + Split(b, sep)
    decreases |a|
  {
    if |a| == 0 {
      assert a + [sep] + b == [sep] + b;
      assert ([sep] + b)[1..] == b;
    } else {
      var s := a + [sep] + b;
      assert s[0] == a[0];
      assert s[1..] == a[1..] + [sep] + b;
      assert sep !in a[1..];
      SplitCons(a[1..], sep, b);
      assert [a[0]] + a[1..] == a;
    }
  }

  /** Splitting a join of separator-free pieces recovers the pieces. */
  lemma {:induction false} SplitJoin(parts: seq<string>, sep: char)
    requires |parts| >= 1
    requires forall k :: 0 <= k < |parts| ==> sep !in parts[k]
    ensures Split(Join(parts, sep), sep) == parts
    decreases |parts|
  {
    if |parts| == 1 {
      SplitNoSep(parts[0], sep);
    } else {
      SplitJoin(parts[1..], sep);
      SplitCons(parts[0], sep, Join(parts[1..], sep));
      assert [parts[0]] + parts[1..] == parts;
    }
  }

  /** Joining two non-empty runs of pieces puts one separator between them. */
  lemma {:induction false} JoinAppend(a: seq<string>, b: seq<string>, sep: char)
    requires |a| >= 1 && |b| >= 1
    ensures Join(a + b, sep) == Join(a, sep) + [sep] + Join(b, sep)
    decreases |a|
  {
    if |a| == 1 {
      assert (a + b)[1..] == b;
    } else {
      assert (a + b)[1..] == a[1..] + b;
      JoinAppend(a[1..], b, sep);
    }
  }

  /** For `n` below the number of pieces, the pieces from `n` on, re-joined,
      are exactly the text after the `n`-th separator: the string is the
      first `n` pieces, one separator, and that text, so separators inside
      the tail are kept. */
  lemma SplitTail(s: string, sep: char, n: nat)
    requires 0 < n < |Split(s, sep)|
    ensures s == Join(Split(s, sep)[..n], sep) + [sep] + Join(Split(s, sep)[n..], sep)
  {
    var parts := Split(s, sep);
    JoinSplit(s, sep);
    assert parts == parts[..n] + parts[n..];
    JoinAppend(parts[..n], parts[n..], sep);
  }

  // ---------------------------------------------------------------------
  // Decimal rendering and parsing of integers

  predicate IsDigit(c: char) {
    '0' <= c <= '9'
  }

  predicate AllDigits(s: string) {
    forall k :: 0 <= k < |s| ==> IsDigit(s[k])
  }

  function DigitChar(d: nat): (c: char)
    requires d < 10
    ensures IsDigit(c) && c as int - '0' as int == d
  {
    ('0' as int + d) as char
  }

  /** `n.ToString()` for a non-negative number: its shortest decimal form. */
  function NatToDecimal(n: nat): (s: string)
    ensures 1 <= |s| && AllDigits(s)
    ensures |s| > 1 ==> s[0] != '0'
    decreases n
  {
    if n < 10 then [DigitChar(n)] else NatToDecimal(n / 10) + [DigitChar(n % 10)]
  }

  /** `i.ToString()` for any integer, with a leading '-' when negative. */
  function IntToDecimal(i: int): (s: string)
    ensures 1 <= |s|
    ensures i < 0 <==> s[0] == '-'
  {
    if i < 0 then "-" + NatToDecimal(-i) else NatToDecimal(i)
  }

  /** The number a run of decimal digits denotes. */
  function DigitsValue(s: string): nat
    requires AllDigits(s)
    decreases |s|
  {
    if |s| == 0 then 0
    else DigitsValue(s[..|s| - 1]) * 10 + (s[|s| - 1] as int - '0' as int)
  }

  lemma {:induction false} DigitsValueOfDecimal(n: nat)
    ensures DigitsValue(NatToDecimal(n)) == n
    decreases n
  {
    if n >= 10 {
      DigitsValueOfDecimal(n / 10);
      var s := NatToDecimal(n);
      assert s[..|s| - 1] == NatToDecimal(n / 10);
    }
  }

  /** Different numbers have different decimal forms. */
  lemma NatToDecimalInjective(a: nat, b: nat)
    requires NatToDecimal(a) == NatToDecimal(b)
    ensures a == b
  {
    DigitsValueOfDecimal(a);
    DigitsValueOfDecimal(b);
  }

  /** The white space `int.Parse` skips around a number (U+0009..U+000D, U+0020). */
  predicate IsNumberWhite(c: char) {
    c == ' ' || ('\t' <= c <= '\r')
  }

  function SkipWhite(s: string, i: nat): (j: nat)
    requires i <= |s|
    ensures i <= j <= |s|
    ensures forall k :: i <= k < j ==> IsNumberWhite(s[k])
    ensures j < |s| ==> !IsNumberWhite(s[j])
    decreases |s| - i
  {
    if i < |s| && IsNumberWhite(s[i]) then SkipWhite(s, i + 1) else i
  }

  function SkipDigits(s: string, i: nat): (j: nat)
    requires i <= |s|
    ensures i <= j <= |s|
    ensures AllDigits(s[i..j])
    ensures j < |s| ==> !IsDigit(s[j])
    decreases |s| - i
  {
    if i < |s| && IsDigit(s[i]) then SkipDigits(s, i + 1) else i
  }

  /** The integer `int.Parse` / `uint.Parse` read from `s` before their range
      check (NumberStyles.Integer): optional white space, an optional '+' or
      '-', at least one digit, optional white space, and then nothing but
      NUL characters. `None` is a FormatException. */
  function ParseInteger(s: string): (r: Option<int>)
    ensures r.Some? ==> exists b, c :: 0 <= b < c <= |s| && AllDigits(s[b..c])
  {
    var a := SkipWhite(s, 0);
    var signed := a < |s| && (s[a] == '-' || s[a] == '+');
    var negative := a < |s| && s[a] == '-';
    var b := if signed then a + 1 else a;
    var c := SkipDigits(s, b);
    if c == b then None
    else
      var d := SkipWhite(s, c);
      if forall k :: d <= k < |s| ==> s[k] == '\0' then
        var v: int := DigitsValue(s[b..c]);
        Some(if negative then -v else v)
      else None
  }

  /** `int.Parse`: `None` on a format error or a value outside int32. */
  function ParseInt32(s: string): (r: Option<int>)
    ensures r.Some? ==> IsInt32(r.value) && ParseInteger(s) == r
    ensures ParseInteger(s).Some? && IsInt32(ParseInteger(s).value) ==> r == ParseInteger(s)
  {
    match ParseInteger(s)
    case Some(v) => if IsInt32(v) then Some(v) else None
    case None => None
  }

  /** `uint.Parse`: `None` on a format error or a value outside uint32
      ("-0" reads as 0). */
  function ParseUInt32(s: string): (r: Option<nat>)
    ensures r.Some? ==> IsUInt32(r.value) && ParseInteger(s) == Some(r.value as int)
    ensures ParseInteger(s).Some? && IsUInt32(ParseInteger(s).value) ==> r.Some?
  {
    match ParseInteger(s)
    case Some(v) => if IsUInt32(v) then Some(v) else None
    case None => None
  }

  /** Parsing the decimal form of any integer gives the integer back. */
  lemma ParseIntToDecimal(i: int)
    ensures ParseInteger(IntToDecimal(i)) == Some(i)
  {
    var s := IntToDecimal(i);
    var m: nat := if i < 0 then -i else i;
    var digits := NatToDecimal(m);
    DigitsValueOfDecimal(m);
    assert !IsNumberWhite(s[0]);
    assert SkipWhite(s, 0) == 0;
    var b := if i < 0 then 1 else 0;
    assert s[b..] == digits;
    assert s[0] == '-' || IsDigit(s[0]);
    SkipDigitsToEnd(s, b);
    assert s[b..|s|] == digits;
  }

  lemma {:induction false} SkipDigitsToEnd(s: string, b: nat)
    requires b < |s| && AllDigits(s[b..])
    ensures SkipDigits(s, b) == |s|
    decreases |s| - b
  {
    assert IsDigit(s[b..][0]);
    if b + 1 < |s| {
      assert s[b + 1..] == s[b..][1..];
      SkipDigitsToEnd(s, b + 1);
    }
  }

  /** The decimal form of a length that fits an int32 parses back to it. */
  lemma ParseInt32OfLength(n: nat)
    requires n <= Int32Max
    ensures ParseInt32(NatToDecimal(n)) == Some(n)
  {
    ParseIntToDecimal(n);
  }

  // ---------------------------------------------------------------------
  // Trimming

  /** `Char.IsWhiteSpace`: the Unicode space separators, line and paragraph
      separators, U+0009..U+000D, U+0085 and U+00A0. */
  predicate IsWhiteSpace(c: char) {
    || ('\t' <= c <= '\r') || c == ' ' || c == '\U{0085}' || c == '\U{00A0}'
    || c == '\U{1680}' || ('\U{2000}' <= c <= '\U{200A}') || c == '\U{2028}'
    || c == '\U{2029}' || c == '\U{202F}' || c == '\U{205F}' || c == '\U{3000}'
  }

  function TrimStart(s: string): (r: string)
    ensures |r| <= |s| && r == s[|s| - |r|..]
    ensures forall k :: 0 <= k < |s| - |r| ==> IsWhiteSpace(s[k])
    ensures |r| > 0 ==> !IsWhiteSpace(r[0])
    decreases |s|
  {
    if |s| > 0 && IsWhiteSpace(s[0]) then TrimStart(s[1..]) else s
  }

  function TrimEnd(s: string): (r: string)
    ensures |r| <= |s| && r == s[..|r|]
    ensures forall k :: |r| <= k < |s| ==> IsWhiteSpace(s[k])
    ensures |r| > 0 ==> !IsWhiteSpace(r[|r| - 1])
    decreases |s|
  {
    if |s| > 0 && IsWhiteSpace(s[|s| - 1]) then TrimEnd(s[..|s| - 1]) else s
  }

  predicate IsTrimmed(s: string) {
    |s| > 0 ==> !IsWhiteSpace(s[0]) && !IsWhiteSpace(s[|s| - 1])
  }

  /** `String.Trim()`: the longest slice of `s` with no white space at either
      end, everything cut away being white space. */
  function Trim(s: string): (r: string)
    ensures IsTrimmed(r)
    ensures exists i, j ::
              && 0 <= i <= j <= |s| && r == s[i..j]
              && (forall k :: 0 <= k < i ==> IsWhiteSpace(s[k]))
              && (forall k :: j <= k < |s| ==> IsWhiteSpace(s[k]))
  {
    TrimSlice(s);
    TrimStart(TrimEnd(s))
  }

  /** Trimming the end and then the start keeps a slice of `s` with white
      space on either side of it. */
  lemma TrimSlice(s: string)
    ensures |TrimEnd(s)| - |TrimStart(TrimEnd(s))| <= |TrimEnd(s)| <= |s|
    ensures TrimStart(TrimEnd(s)) == s[|TrimEnd(s)| - |TrimStart(TrimEnd(s))|..|TrimEnd(s)|]
    ensures forall k :: 0 <= k < |TrimEnd(s)| - |TrimStart(TrimEnd(s))| ==> IsWhiteSpace(s[k])
    ensures IsTrimmed(TrimStart(TrimEnd(s)))
  {
    var t := TrimEnd(s);
    var r := TrimStart(t);
    PrefixSuffix(s, |t|, |t| - |r|);
    PrefixWhite(s, t, |t| - |r|);
    LastOfSuffix(t, r);
  }

  lemma PrefixSuffix(s: string, m: nat, i: nat)
    requires i <= m <= |s|
    ensures s[..m][i..] == s[i..m]
  {
  }

  lemma PrefixWhite(s: string, t: string, i: nat)
    requires |t| <= |s| && t == s[..|t|] && i <= |t|
    requires forall k :: 0 <= k < i ==> IsWhiteSpace(t[k])
    ensures forall k :: 0 <= k < i ==> IsWhiteSpace(s[k])
  {
    assert forall k :: 0 <= k < i ==> s[k] == t[k];
  }

  lemma LastOfSuffix(t: string, r: string)
    requires |r| <= |t| && r == t[|t| - |r|..]
    requires |r| > 0 ==> !IsWhiteSpace(r[0])
    requires |t| > 0 ==> !IsWhiteSpace(t[|t| - 1])
    ensures IsTrimmed(r)
  {
    assert |r| > 0 ==> r[|r| - 1] == t[|t| - 1];
  }
}

=== FILE: toast_action.dfy ===
/** The background task a toast button starts
    (ToastNotificationActionTriggerTask.cs), and the three messages it can
    queue for the phone (`SendSms`, `DismissCall`, `OpenApp` in
    RfcommServerTask.cs). */
module ToastAction {
  import opened Common
  import opened Text
  import opened Kinds
  import opened Protocol

  /** What started the task: a toast action carries the button's argument
      (`None` for null) and the toast's input values (`None` for null), in
      order; any other trigger carries nothing the task reads. */
  datatype Trigger =
    | ActionTrigger(argument: Option<string>, userInput: Option<seq<string>>)
    | OtherTrigger

  /** The three calls into the server task. */
  datatype Route =
    | SendSms(phoneNumber: string, text: string)
    | DismissCall(key: string)
    | OpenApp(key: string)

  /** The task's outcome: nothing to do, one call made, or an exception
      (`First()` on an empty set of input values). */
  datatype Outcome = Ignored | Routed(route: Route) | Threw

  /** `Run`: a phone-number argument ("+" first) sends the first input value
      as a text reply when the toast had inputs and dismisses the call when
      it had none; any other non-empty argument opens the app on the phone. */
  function Run(t: Trigger): (r: Outcome)
    ensures r.Ignored? <==> !t.ActionTrigger? || t.argument.None? || t.argument.value == ""
    ensures r.Threw? <==> t.ActionTrigger? && t.argument.Some? && StartsWith(t.argument.value, "+")
                          && t.userInput == Some([])
    ensures r.Routed? ==> t.ActionTrigger? && t.argument.Some? && t.argument.value != ""
    ensures r.Routed? && r.route.SendSms? <==>
              && t.ActionTrigger? && t.argument.Some? && StartsWith(t.argument.value, "+")
              && t.userInput.Some? && |t.userInput.value| > 0
    ensures r.Routed? && r.route.SendSms? ==>
              r.route == SendSms(t.argument.value, t.userInput.value[0])
    ensures r.Routed? && r.route.DismissCall? <==>
              && t.ActionTrigger? && t.argument.Some? && StartsWith(t.argument.value, "+") && t.userInput.None?
    ensures r.Routed? && r.route.OpenApp? <==>
              && t.ActionTrigger? && t.argument.Some? && t.argument.value != ""
              && !StartsWith(t.argument.value, "+")
    ensures r.Routed? && !r.route.SendSms? ==> r.route.key == t.argument.value
  {
    match t
    case OtherTrigger => Ignored
    case ActionTrigger(argument, userInput) =>
      if argument.None? || argument.value == "" then Ignored
      else if StartsWith(argument.value, "+") then
        match userInput
        case Some(values) => if |values| == 0 then Threw else Routed(SendSms(argument.value, values[0]))
        case None => Routed(DismissCall(argument.value))
      else Routed(OpenApp(argument.value))
  }

  /** The message each call queues: a reply is a Remove carrying the number
      and the text, a dismissal a bare Remove of the key, an open a bare
      Open of the key. */
  function Message(route: Route): (m: Outbound)
    ensures m.body == "" && m.appName == ""
    ensures m.kind == (if route.OpenApp? then Open else Remove)
    ensures m.id == (if route.SendSms? then route.phoneNumber else route.key)
    ensures m.title == (if route.SendSms? then route.text else "")
  {
    match route
    case SendSms(phoneNumber, text) => Outbound(Remove, phoneNumber, text, "", "")
    case DismissCall(key) => Outbound(Remove, key, "", "", "")
    case OpenApp(key) => Outbound(Open, key, "", "", "")
  }

  /** How the phone can read a message back into the call that sent it. */
  function Recover(m: Outbound): (route: Route)
    ensures route.OpenApp? <==> m.kind == Open
  {
    if m.kind == Open then OpenApp(m.id)
    else if m.title == "" then DismissCall(m.id)
    else SendSms(m.id, m.title)
  }

  /** The phone reads every call back from its message, except that an
      empty text reply reads as dismissing the call. */
  lemma RecoverMessage(route: Route)
    ensures Recover(Message(route)) == route <==> !(route.SendSms? && route.text == "")
  {
  }

  /** The wire texts of two calls are equal exactly when the calls are, or
      when one is an empty reply to the number the other dismisses. */
  lemma MessagesDistinct(codes: TypeCodes, a: Route, b: Route)
    requires codes.Valid() && OutboundFits(Message(a)) && OutboundFits(Message(b))
    ensures Wire(codes, Message(a)) == Wire(codes, Message(b)) <==>
              || a == b
              || (a.SendSms? && a.text == "" && b == DismissCall(a.phoneNumber))
              || (b.SendSms? && b.text == "" && a == DismissCall(b.phoneNumber))
  {
    if Wire(codes, Message(a)) == Wire(codes, Message(b)) {
      WireInjective(codes, Message(a), Message(b));
    }
  }
}

=== FILE: winamp.dfy ===
/** The song title read from Winamp's main window (Win32/Winamp.cs). The two
    window calls become inputs: whether a window of Winamp's class exists,
    and the buffer with the length the text call reports. `double.TryParse`
    is left as a parameter. */
module Winamp {
  import opened Common
  import opened Text

  /** The end of the window title while a song is loaded. */
  const TitleEnd := " - Winamp"

  /** The length of the buffer the title is read into. */
  const BufferLength := 100

  /** `p` first occurs in `s` at `i`. */
  predicate FirstAt(s: string, p: string, i: nat) {
    OccursAt(s, p, i) && forall k :: 0 <= k < i ==> !OccursAt(s, p, k)
  }

  lemma IndexOfFirst(s: string, p: string, i: nat)
    requires FirstAt(s, p, i)
    ensures IndexOf(s, p) == Some(i)
  {
  }

  /** `r` is a contiguous slice of `s`. */
  predicate Within(r: string, s: string) {
    exists i, j :: 0 <= i <= j <= |s| && r == s[i..j]
  }

  /** The numbered-playlist prefix ("12.") goes when what precedes the first
      dot is a number; otherwise the text stays. */
  function StripTrackNumber(s: string, isNumeric: string -> bool): (r: string)
    ensures |r| <= |s| && r == s[|s| - |r|..]
    ensures forall d: nat :: FirstAt(s, ".", d) && 0 < d && isNumeric(s[..d]) ==> r == s[d + 1..]
    ensures (forall d: nat :: FirstAt(s, ".", d) ==> d == 0 || !isNumeric(s[..d])) ==> r == s
  {
    match IndexOf(s, ".")
    case Some(d) =>
      if d > 0 && isNumeric(s[..d]) then
        assert |s[d + 1..]| < |s|;
        s[d + 1..]
      else s
    case None => s
  }

  /** The bracket rule applies: " - Winamp" first occurs before the first
      "[", and the first "]" lies beyond the character after it. */
  predicate BracketCase(title: string) {
    var name := IndexOf(title, TitleEnd);
    var left := IndexOf(title, "[");
    var right := IndexOf(title, "]");
    name.Some? && left.Some? && name.value < left.value && right.Some? && left.value + 1 < right.value
  }

  /** The title before trimming: the text between the first brackets when
      " - Winamp" comes before them, else the title without " - Winamp" and
      its track number, else "Not Playing". */
  function Extract(title: string, isNumeric: string -> bool): string {
    if BracketCase(title) then
      title[IndexOf(title, "[").value + 1..IndexOf(title, "]").value]
    else if EndsWith(title, TitleEnd) && |title| > |TitleEnd| then
      StripTrackNumber(title[..|title| - |TitleEnd|], isNumeric)
    else "Not Playing"
  }

  /** What is extracted is "Not Playing" or a slice of the title. */
  lemma ExtractWithin(title: string, isNumeric: string -> bool)
    ensures Extract(title, isNumeric) == "Not Playing" || Within(Extract(title, isNumeric), title)
  {
    var left := IndexOf(title, "[");
    var right := IndexOf(title, "]");
    if Extract(title, isNumeric) != "Not Playing" {
      if left.Some? && right.Some? && left.value + 1 < right.value
         && Extract(title, isNumeric) == title[left.value + 1..right.value] {
      } else if EndsWith(title, TitleEnd) && |title| > |TitleEnd| {
        var stem := title[..|title| - |TitleEnd|];
        var r := StripTrackNumber(stem, isNumeric);
        SliceOfSlice(title, 0, |stem|, |stem| - |r|, |stem|);
      }
    }
  }

  /** `GetSongTitle`: `None` (null) without a window, "unknown" when the
      reported length is not within the buffer, and otherwise the extracted
      title with white space trimmed from both ends. */
  function GetSongTitle(window: bool, buffer: string, length: int, isNumeric: string -> bool): (r: Option<string>)
    requires |buffer| == BufferLength
    ensures r.None? <==> !window
    ensures window && (length <= 0 || length > BufferLength) ==> r == Some("unknown")
    ensures window && 0 < length <= BufferLength ==> IsTrimmed(r.value)
  {
    if !window then None
    else if length <= 0 || length > |buffer| then Some("unknown")
    else Some(Trim(Extract(buffer[..length], isNumeric)))
  }

  /** Every title read from a window is "Not Playing" or a piece of the
      window's text. */
  lemma TitleFromWindow(buffer: string, length: int, isNumeric: string -> bool)
    requires |buffer| == BufferLength && 0 < length <= |buffer|
    ensures var r := GetSongTitle(true, buffer, length, isNumeric).value;
            r == "Not Playing" || Within(r, buffer[..length])
  {
    ExtractWithin(buffer[..length], isNumeric);
    TrimExtracted(Extract(buffer[..length], isNumeric), buffer[..length]);
  }

  /** The result of trimming is a slice of what was trimmed. */
  lemma TrimSlice(e: string) returns (c: nat, d: nat)
    ensures c <= d <= |e| && Trim(e) == e[c..d]
  {
    c, d :| 0 <= c <= d <= |e| && Trim(e) == e[c..d]
            && (forall k :: 0 <= k < c ==> IsWhiteSpace(e[k]))
            && (forall k :: d <= k < |e| ==> IsWhiteSpace(e[k]));
  }

  lemma SliceOfSlice(s: string, a: nat, b: nat, c: nat, d: nat)
    requires a <= b <= |s| && c <= d <= b - a
    ensures s[a..b][c..d] == s[a + c..a + d]
  {
    assert forall k :: 0 <= k < d - c ==> s[a..b][c..d][k] == s[a + c..a + d][k];
  }

  lemma TrimExtracted(e: string, title: string)
    requires e == "Not Playing" || Within(e, title)
    ensures Trim(e) == "Not Playing" || Within(Trim(e), title)
  {
    if e == "Not Playing" {
      TrimNotPlaying();
    } else {
      TrimWithin(e, title);
    }
  }

  lemma TrimWithin(e: string, s: string)
    requires Within(e, s)
    ensures Within(Trim(e), s)
  {
    var a, b :| 0 <= a <= b <= |s| && e == s[a..b];
    var c, d := TrimSlice(e);
    SliceOfSlice(s, a, b, c, d);
  }

  /** Trimming keeps a text whose ends are not white space. */
  lemma TrimKeepsTrimmed(s: string)
    requires IsTrimmed(s)
    ensures Trim(s) == s
  {
  }

  lemma TrimNotPlaying()
    ensures Trim("Not Playing") == "Not Playing"
  {
    TrimKeepsTrimmed("Not Playing");
  }

  /** With a window and a length within the buffer, the result is the
      trimmed extraction from the reported text. */
  lemma ReadTitle(buffer: string, length: int, isNumeric: string -> bool)
    requires |buffer| == BufferLength && 0 < length <= |buffer|
    ensures GetSongTitle(true, buffer, length, isNumeric) == Some(Trim(Extract(buffer[..length], isNumeric)))
  {
  }

  lemma ExtractBracket(title: string, isNumeric: string -> bool, n: nat, left: nat, right: nat)
    requires FirstAt(title, TitleEnd, n) && FirstAt(title, "[", left) && FirstAt(title, "]", right)
    requires n < left && left + 1 < right
    ensures Extract(title, isNumeric) == title[left + 1..right]
  {
    IndexOfFirst(title, TitleEnd, n);
    IndexOfFirst(title, "[", left);
    IndexOfFirst(title, "]", right);
  }

  lemma ExtractSuffix(title: string, isNumeric: string -> bool, stem: string)
    requires title == stem + TitleEnd && |stem| > 0 && !BracketCase(title)
    ensures Extract(title, isNumeric) == StripTrackNumber(stem, isNumeric)
  {
    assert title[..|title| - |TitleEnd|] == stem;
    assert title[|title| - |TitleEnd|..] == TitleEnd;
  }

  lemma ExtractFallback(title: string, isNumeric: string -> bool)
    requires !BracketCase(title) && (!EndsWith(title, TitleEnd) || |title| <= |TitleEnd|)
    ensures Extract(title, isNumeric) == "Not Playing"
  {
  }

  /** The bracket rule: when " - Winamp" first occurs before the first "["
      and the first "]" lies beyond the character after it, the title is
      what the brackets enclose, trimmed. */
  lemma BracketRule(buffer: string, length: int, isNumeric: string -> bool, n: nat, left: nat, right: nat)
    requires |buffer| == BufferLength && 0 < length <= |buffer|
    requires FirstAt(buffer[..length], TitleEnd, n) && FirstAt(buffer[..length], "[", left)
    requires FirstAt(buffer[..length], "]", right)
    requires n < left && left + 1 < right
    ensures GetSongTitle(true, buffer, length, isNumeric) == Some(Trim(buffer[left + 1..right]))
  {
    ReadTitle(buffer, length, isNumeric);
    BracketText(buffer, length, isNumeric, n, left, right);
    SameTitle(GetSongTitle(true, buffer, length, isNumeric), Extract(buffer[..length], isNumeric),
              buffer[left + 1..right]);
  }

  lemma BracketText(buffer: string, length: int, isNumeric: string -> bool, n: nat, left: nat, right: nat)
    requires 0 < length <= |buffer|
    requires FirstAt(buffer[..length], TitleEnd, n) && FirstAt(buffer[..length], "[", left)
    requires FirstAt(buffer[..length], "]", right)
    requires n < left && left + 1 < right
    ensures Extract(buffer[..length], isNumeric) == buffer[left + 1..right]
  {
    ExtractBracket(buffer[..length], isNumeric, n, left, right);
    PrefixSlice(buffer, length, left + 1, right);
  }

  /** Equal extractions read as equal titles. */
  lemma SameTitle(title: Option<string>, e: string, x: string)
    requires title == Some(Trim(e)) && e == x
    ensures title == Some(Trim(x))
  {
  }

  lemma PrefixSlice(s: string, m: nat, i: nat, j: nat)
    requires i <= j <= m <= |s|
    ensures s[..m][i..j] == s[i..j]
  {
  }

  /** The suffix rule: when the bracket rule does not apply, a title that
      ends in " - Winamp" after some text is that text, less its track
      number, trimmed. */
  lemma SuffixRule(buffer: string, length: int, isNumeric: string -> bool, stem: string)
    requires |buffer| == BufferLength && 0 < length <= |buffer| && buffer[..length] == stem + TitleEnd && |stem| > 0
    requires !BracketCase(buffer[..length])
    ensures GetSongTitle(true, buffer, length, isNumeric) == Some(Trim(StripTrackNumber(stem, isNumeric)))
  {
    ReadTitle(buffer, length, isNumeric);
    SuffixText(buffer, length, isNumeric, stem);
    SameTitle(GetSongTitle(true, buffer, length, isNumeric), Extract(buffer[..length], isNumeric),
              StripTrackNumber(stem, isNumeric));
  }

  lemma SuffixText(buffer: string, length: int, isNumeric: string -> bool, stem: string)
    requires 0 < length <= |buffer| && buffer[..length] == stem + TitleEnd && |stem| > 0
    requires !BracketCase(buffer[..length])
    ensures Extract(buffer[..length], isNumeric) == StripTrackNumber(stem, isNumeric)
  {
    ExtractSuffix(buffer[..length], isNumeric, stem);
  }

  /** Any other title reads as "Not Playing". */
  lemma FallbackRule(buffer: string, length: int, isNumeric: string -> bool)
    requires |buffer| == BufferLength && 0 < length <= |buffer|
    requires !BracketCase(buffer[..length])
    requires !EndsWith(buffer[..length], TitleEnd) || length <= |TitleEnd|
    ensures GetSongTitle(true, buffer, length, isNumeric) == Some("Not Playing")
  {
    ReadTitle(buffer, length, isNumeric);
    FallbackText(buffer, length, isNumeric);
    SameTitle(GetSongTitle(true, buffer, length, isNumeric), Extract(buffer[..length], isNumeric), "Not Playing");
    TrimNotPlaying();
  }

  lemma FallbackText(buffer: string, length: int, isNumeric: string -> bool)
    requires 0 < length <= |buffer|
    requires !BracketCase(buffer[..length])
    requires !EndsWith(buffer[..length], TitleEnd) || length <= |TitleEnd|
    ensures Extract(buffer[..length], isNumeric) == "Not Playing"
  {
    ExtractFallback(buffer[..length], isNumeric);
  }

  lemma NoOccurrence(s: string, c: char)
    requires forall k :: 0 <= k < |s| ==> s[k] != c
    ensures IndexOf(s, [c]).None?
  {
    assert forall i: nat :: OccursAt(s, [c], i) ==> s[i..i + 1][0] == s[i];
  }

  lemma NumberStripped(isNumeric: string -> bool)
    requires isNumeric("12")
    ensures StripTrackNumber("12. Artist - Song", isNumeric) == " Artist - Song"
  {
    var number, rest := "12", " Artist - Song";
    var stem := number + "." + rest;
    assert stem == "12. Artist - Song" by {
      assert forall k :: 0 <= k < |stem| ==> stem[k] == "12. Artist - Song"[k];
    }
    assert OccursAt(stem, ".", 2) && stem[..2] == number && stem[3..] == rest;
    assert !OccursAt(stem, ".", 0) && !OccursAt(stem, ".", 1) by {
      assert stem[0] == '1' && stem[1] == '2';
    }
    assert FirstAt(stem, ".", 2);
  }

  /** Trimming drops one leading space before a trimmed text. */
  lemma TrimLeadingSpace(s: string)
    requires |s| > 1 && s[0] == ' ' && IsTrimmed(s[1..])
    ensures Trim(s) == s[1..]
  {
    assert TrimStart(s) == TrimStart(s[1..]);
  }

  lemma TrimmedSong()
    ensures Trim(" Artist - Song") == "Artist - Song"
  {
    var title := " Artist - Song";
    assert title[1..] == "Artist - Song" && IsTrimmed(title[1..]);
    TrimLeadingSpace(title);
  }

  /** A numbered playlist entry loses its number: with "12" read as a
      number, "12. Artist - Song - Winamp" reads as "Artist - Song". */
  lemma NumberedEntry(buffer: string, isNumeric: string -> bool)
    requires |buffer| == BufferLength && buffer[..26] == "12. Artist - Song - Winamp"
    requires isNumeric("12")
    ensures GetSongTitle(true, buffer, 26, isNumeric) == Some("Artist - Song")
  {
    var stem := "12. Artist - Song";
    assert buffer[..26] == stem + TitleEnd by {
      assert forall k :: 0 <= k < 26 ==> buffer[..26][k] == (stem + TitleEnd)[k];
    }
    assert forall k :: 0 <= k < 26 ==> buffer[..26][k] != '[';
    NoOccurrence(buffer[..26], '[');
    SuffixRule(buffer, 26, isNumeric, stem);
    NumberStripped(isNumeric);
    TrimmedSong();
  }
}
